=== FILE: README.md ===
# load-balancer core in Dafny

A model of the request-handling core of the Atomicals realm load balancer.
The system is a Cloudflare Worker. It parses media references of the form
`prefix:protocol:type:id[/suffix]` and fetches realm and media data from a
list of ElectrumX mirror servers. A request makes as many attempts as
there are mirrors, each against a freshly drawn random mirror (so a mirror
can be tried twice) unless it pins one: the transaction fetch of the media
fallback always asks the first mirror. The first good answer wins. A separate proxy worker
answers from a key-value cache and otherwise from a random mirror, caching
good answers for 600 seconds. The model also covers several depth-first
scans over decoded JSON and CBOR:

- the first object holding a key;
- every `$b` hex payload;
- the first byte array;
- every `image`/`img` value.

It models the witness filter that rebuilds an inscription envelope, the
id-to-transaction mapping, the media dispatch with its fallback, the shaping
of realm id answers, and the decision that saves a realm row to the database.

Modules, one per concern:

- `Basics`: `Option` and `byte`.
- `Text`: `split`, `join`, `indexOf`, and the decimal keys of array elements.
- `JsonData`: decoded values, with JavaScript truthiness, `typeof`, `in`, property access and optional chaining.
- `Urn`: `removeDuplicatePrefixes` and `parseAtomicalIdfromURN`.
- `Scan`: `getFileExtension`, `findObjectWithKey`, `extractHexData`, `findUint8ArrayData` and `extractImages`.
- `Witness`: `concatenateUint8Arrays`.
- `Upstream`: `fetchApiServer`.
- `Media`: `getTxIdFromAtomicalId` and `fetchHexData`.
- `Realm`: the shaping in `fetchRealmAtomicalId`.
- `Store`: `saveToD1`.
- `Proxy`: the proxy worker in `src/proxy.ts`.

The network, `Math.random`, the script decompiler, the transaction decoder,
the CBOR decoder and the database are parameters. In `Upstream` and
`Proxy`, mirror attempts are an oracle `net(t, url)`; `Media` sees a whole
`fetchApiServer(request, path, index)` call as the oracle `api(path, index)`. The random choice of attempt `t` is `draw(t)` reduced
modulo the number of mirrors. The decoders are function fields of
`Media.MediaOracle`. The insert's `success` flag is the `insertOk` argument
of `Store.SaveToD1`. A JSON object is an ordered list of members,
and "enumeration order" is list order. Strings are `seq<char>`, sequences of
Unicode scalar values; JavaScript strings are sequences of UTF-16 code
units. The two agree on every well-formed string (one without unpaired
surrogates) whose characters all lie in the Basic Multilingual Plane.

The scans are stated against a common reference, `JsonData.Walk`: the
entries of a tree in the order a depth-first `for...in` meets them, each
with the key of the entry holding it, not entering the values of entries
whose key is a given stop key. `JsonData.WalkClosed` proves it reaches
every depth.

## Model

| member | source | states |
|---|---|---|
| Urn.DedupSegments | src/utils.ts:96-109 | The seen-set loop yields the deduplicated segments: no segment twice, exactly the input's segments. |
| Urn.DedupOrder | src/utils.ts:100-106 | Kept segments appear in the order of their first occurrence in the input. |
| Urn.DedupIdempotent | src/utils.ts:96-109 | Deduplicating already deduplicated segments changes nothing. |
| Urn.SegmentsAfterDedup | src/utils.ts:96-109 | Splitting the rewritten line on `:` gives back exactly the deduplicated segments, so join does not merge or split segments. |
| Urn.RemoveDuplicatePrefixesIdempotent | src/utils.ts:96-109 | Applying the rewrite to its own output changes nothing. |
| Urn.ParseSpec | src/utils.ts:111-132 | `null` iff fewer than four distinct segments remain. Otherwise prefix, protocol and type are the first three deduplicated segments, which are pairwise different. The id is the rest rejoined on `:` up to, not including, its first `/`, and is the whole rest when there is no `/`. |
| Scan.FileExtensionSpec | src/utils.ts:30-33 | A name without `.` gets `png`. Otherwise the result is the dot-free tail after the name's last `.`. |
| Scan.FindObjectWithKey | src/utils.ts:66-85 | A non-object gives `null`. An object having the key is returned itself. Any result is an object having the key that occurs in the value's pre-order. |
| Scan.FindObjectIsFirstInPreorder | src/utils.ts:66-85 | The result is the first object having the key in depth-first pre-order. |
| Scan.FindObjectNoneIff | src/utils.ts:66-85 | `null` exactly when no object in the pre-order has the key. |
| Scan.ExtractHexData | src/utils.ts:191-211 | Every entry's extension is the extension of its file name. Every file name is the initial parent key or a key occurring in the value. A non-object gives no entries. |
| Scan.ExtractHexSpec | src/utils.ts:191-211 | Against the walk that does not enter `$b` values: the scan throws iff it meets a `$b` member holding `null`. Otherwise the entries are exactly the string payloads of the `$b` members it meets, in walk order. A payload is the string value or the value's own string `$b`, named by the key of the entry holding it. |
| Scan.PayloadNotDescended | src/utils.ts:195-202 | A `$b` member yields at most one entry and is not searched further. A string payload yields exactly the entry named by the parent key. |
| Scan.NullPayloadThrows | src/utils.ts:197 | A `$b` member whose value is `null` makes the scan throw, at any position among the object's members. |
| Scan.FindBytesIn | src/utils.ts:496-530 | A hit's bytes are a byte array occurring inside the value. Its file name is the parent key or a key occurring in the value. |
| Scan.FindBytesIsFirstSite | src/utils.ts:496-530 | When no byte array below the root's entries is empty, the hit is exactly the first byte-array entry of the full walk. It is named `parentKey \|\| key`: the key of the entry holding the array, or the array's own key at the top. An empty array directly under the root counts, and is returned with no data. |
| Scan.TopLevelEmptyBytesReturned | src/utils.ts:505-511 | For `{x: <empty>, y: <one byte>}` the hit is the empty array named `x`, so the later non-empty array is never reached. |
| Scan.NestedHitNamedByParent | src/utils.ts:507 | For `{a: {"x.gif": <one byte>}}` the hit is named `a`, so the image's extension becomes `png`. |
| Scan.FindBytesIsFirstInPreorder | src/utils.ts:496-530 | When no byte array is empty, the hit is the first byte array in depth-first pre-order. |
| Scan.EmptyBytesHideSibling | src/utils.ts:503-525 | An empty byte array ends its object's scan at once, and the caller then drops that empty hit. So an object `{o: {x: <empty>, y: <one byte>}}` yields `null` although it holds a non-empty array. This is why the pre-order result needs its hypothesis. |
| Scan.ExtractImages | src/utils.ts:235-247 | Every collected value occurs inside the scanned value. |
| Scan.ExtractImagesSpec | src/utils.ts:235-247 | The collected values are exactly those of the `image`/`img` entries met by the walk that does not enter their values, in walk order. |
| Scan.NestedImagesCollected | src/utils.ts:238-243 | At every depth below an entry the scan enters, an `image`/`img` entry's value is collected. |
| Scan.ImageValueNotDescended | src/utils.ts:238-241 | An `image`/`img` value is collected whole, and nothing inside it is collected separately. |
| Scan.TopLevelImagesCollected | src/utils.ts:235-247 | Every `image`/`img` member of the scanned object is collected. |
| Witness.ConcatenateSegments | src/utils.ts:458-488 | The select, sum and copy loops produce the concatenation of the kept pushes, and its length is the sum of their lengths. |
| Witness.CollectingIff | src/utils.ts:463-468 | Collection is on after a prefix of the script exactly when some `IF` in it has no later `ENDIF`. |
| Witness.KeptSpec | src/utils.ts:463-474 | The kept segments are exactly the keyword-free pushes at collecting positions, in script order. |
| Witness.KeptInsideIf | src/utils.ts:463-474 | A kept push follows an `IF` with no `ENDIF` in between, and its first four bytes contain none of the six keywords. |
| Witness.NothingKeptWithoutIf | src/utils.ts:463-474 | A script without `IF` contributes no bytes. |
| Upstream.FetchApiServer | src/utils.ts:249-271 | At most as many attempts as there are mirrors. Each URL is the drawn mirror, `/` and the path, and a pinned index fixes the mirror for every attempt. Every attempt before the last failed. An ok result is the last attempt's response. Otherwise the result is the 503 response, after as many failed attempts as there are mirrors. |
| Upstream.FetchFromFirstMirror | src/utils.ts:249-271 | The call `fetchApiServer(request, path, 0)` of line 577 over the two mirrors of src/consts.ts:7 sends every attempt, at most two, to the first mirror. An ok result is the last attempt's response, otherwise the 503 after two failed attempts. |
| Media.TxIdFromAtomicalId | src/utils.ts:436-446 | A missing or empty id gives `null`. A 64-character id is returned whole. The id is rejected iff it has another length and its first `i` is not at position 64. A returned hash is 64 characters long and is a prefix of the id. |
| Media.ScanWitnesses | src/utils.ts:596-614 | A found image is raw bytes with an extension. The only exception escaping the witness loop is the CBOR decode's. |
| Media.ScanWitnessesIsFirst | src/utils.ts:596-614 | The loop returns `null` iff no witness yields a byte-array hit or a throwing decode. Otherwise it ends at the first witness that does. It returns that hit's bytes with the extension of the hit's name, or rethrows the decode error. |
| Media.AtomPrimary | src/utils.ts:543-568 | A failed status, an unparseable body, a falsy `success` or a `null` `$b` payload in the mint data sends the call to the `catch`. A falsy body, or a successful answer whose mint data is missing or holds no payload, gives `null`. An image is the first payload of the mint data, with its file name's extension, from a successful answer. |
| Media.NoPayloadGivesNull | src/utils.ts:557-568 | A successful answer whose mint data is missing or holds no payload ends the whole call with `null`, and the fallback is not tried. |
| Media.PrimaryFailureFallsBack | src/utils.ts:543-569 | The `catch` is reached exactly on those four failures, and then the call's result is the fallback's. |
| Media.FalsyBodyGivesNull | src/utils.ts:550-552 | A falsy body from the atomical fetch ends the call with `null`, without the fallback. |
| Media.PrimaryNoImageGivesNull | src/utils.ts:550-568 | Whenever the `try` block returns without an image, the whole call gives `null`. |
| Media.Fallback | src/utils.ts:569-619 | The fallback throws the invalid-id error exactly when the id is rejected. It asks mirror 0 for the transaction id. A failed status, a falsy body or a falsy `success` gives `null`, and an unparseable body throws. Any image it returns is raw bytes with an extension. |
| Media.FallbackScansWitnesses | src/utils.ts:578-618 | Once mirror 0 answers with any ok status and a truthy `success`, and the transaction decodes, the fallback is the witness loop over the transaction's witnesses, one empty list when it has none. It gives `null` iff no witness yields a hit or a throwing decode. |
| Media.FallbackTxDecodeThrows | src/utils.ts:594 | A transaction that does not decode escapes as an exception. |
| Media.OrdPath | src/utils.ts:626-640 | An empty id gives `null`. An ok fetch of the ordinals URL plus the id gives its bytes with no extension. A failed status gives `null`, and a network error escapes. |
| Media.FetchHexData | src/utils.ts:532-661 | No reference, a protocol other than `btc`, or a `btc` prefix other than `atom`/`ord` gives `null`. A hex image comes only from `atom` with type `id`/`dat`. The invalid-id error escapes only from there, and only for a rejected id. |
| Media.AtomFallsThroughToOrd | src/utils.ts:536-640 | `atom` with a type other than `id`/`dat` falls through to the `ord` case and behaves exactly as `ord`. |
| Media.InvalidIdEscapes | src/utils.ts:569-574 | On the `atom` data route the invalid-id error escapes iff the primary fetch failed into the `catch` and the id is rejected. |
| Media.FallbackPinsMirrorZero | src/utils.ts:577 | The fallback's outcome depends only on what mirror 0 answers. |
| Media.PrimaryReturnsFirstPayload | src/utils.ts:543-563 | When the atomical fetch succeeds and `mint_data` holds payloads, the first payload is returned with its file name's extension. |
| Realm.Shape | src/utils.ts:290-303 | `null` iff neither id is truthy. Otherwise `cid` is returned as read. `id` is the confirmed id when that is truthy, and `null` otherwise, next to a truthy candidate. |
| Realm.FetchRealmAtomicalIdAsWritten | src/utils.ts:273-308 | The code as written. A failed or unparseable response, falsy data, or a throwing candidate read gives `null`. Any result carries the candidate as read and either the truthy confirmed id or `null` next to a truthy candidate. |
| Realm.FetchRealmAtomicalId | src/utils.ts:273-308 | The corrected variant, with `candidates?.[0]` guarded at line 289. A failed or unparseable response, or falsy data, gives `null`. Any result carries the guarded candidate read. A truthy confirmed id is always returned, and a truthy candidate alone always gives a result. |
| Realm.GuardAgreesWithCandidates | src/utils.ts:287-289 | When the result holds `candidates`, the guarded read agrees with the code as written. |
| Realm.MissingCandidatesLosesId | src/utils.ts:289 | For a result with a confirmed id and no `candidates`, the code as written returns `null` and the guarded version returns the id. |
| Store.SaveToD1 | src/utils.ts:747-796 | A new realm is inserted and the insert's success is returned. A stored realm gives `false`. With `update`, owner, avatar, banner, meta and profile are rewritten, id, number and minter stay, and the realm's cache entry is dropped. Otherwise nothing changes. No other row changes, and only a new realm adds a row. |
| Store.FirstSaveWins | src/utils.ts:784-795 | After a realm is saved, a later save without `update` changes nothing and returns `false`. |
| Store.UpdateIdempotent | src/utils.ts:765-791 | Repeating the same update leaves the stores unchanged. |
| Proxy.GetAllowedOrigin | src/proxy.ts:4-9 | The header is non-empty iff the origin is present and listed, and then it echoes that origin. A missing or unlisted origin gives the empty string. The identical `getAllowedOrigin` of src/utils.ts:695-700 is the same member. |
| Proxy.StripProxy | src/proxy.ts:14 | Only a leading `/proxy` is removed, and putting it back gives the original pathname. Any other pathname is unchanged. |
| Proxy.ForwardPath | src/proxy.ts:14-17 | The forwarded path is the pathname followed by the query string, minus a leading `/proxy`. |
| Proxy.HandleProxy | src/proxy.ts:18-60 | A cached reply happens iff the cache holds a truthy value under `cache:` plus the forwarded path, and then no mirror is contacted and nothing is written. Otherwise there are at most as many attempts as mirrors, each to a freshly drawn mirror plus the forwarded path, and every attempt before the last failed. A mirror answer is the last attempt's parsed body. It names that mirror and writes the body under the cache key with TTL 600. The 503 reply comes after as many failed attempts as there are mirrors and writes nothing. |

## Left out

- I/O is left out. The HTTP fetches, the KV store, D1, logging and `ctx.waitUntil` are oracle parameters or return values.
- `new Request(url, request)` copies the incoming request, and its URL validation is not modelled.
- `Math.random` is the oracle `draw`. Only the reduced index matters.
- Upstream.FetchApiServer: requires the pinned index to be below the number of mirrors, because the source only passes `-1` or `0` with two mirrors.
- Own enumerable keys are the only keys of `in`. Inherited prototype names such as `toString`, and `hasOwnProperty` shadowed by a member, are not modelled. For arrays and byte arrays, `in` sees the index keys and `length`.
- Byte arrays have no entries of their own for the scans. Their elements are numbers, which no scan descends into or reports.
- Scan.FindBytesIn: records no content type, because the `$ct` branch needs a string under a value already known to be an object, so it never fires.
- Store.SaveToD1: treats the un-awaited update statement as having completed. The JSON text written to the meta and profile columns is kept as the value.
- The endpoint of the fallback transaction fetch and the ordinals base URL are imported but not defined in `src/consts.ts`. They are fixed placeholder strings.
- Proxy.HandleProxy: takes `JSON.stringify` followed by the cache's JSON read to give back the same value.
- Realm.FetchRealmAtomicalId: takes the mirror response as its input. Building the request path from the realm name is not modelled.
- Member order: JavaScript's `for...in` and `Object.keys` visit integer-like keys first, in ascending numeric order, and then the other keys in insertion order. The member list stands for that enumeration order, not for the order of the JSON text, and the model does not reorder members itself.
- Lengths and positions count Unicode scalar values, where JavaScript counts UTF-16 code units. A character outside the Basic Multilingual Plane counts once here and twice in JavaScript. So `Media.TxIdFromAtomicalId` accepts 63 hex digits followed by U+1F600 as a 64-character id, where the source throws. A lone surrogate such as `"\ud800"`, which JSON text and JavaScript strings allow, has no `char` and cannot be represented.
- Objects may repeat a member name, which no parsed object does. `JsonData.WellFormed` states the unique-names condition, and `JsonData.LookupUnique` shows property reads under it. The scans neither need it nor assume it.
- `btc.Script.decode`, `btc.RawTx.decode`, `hex.decode` and `CBOR.decode` are oracle functions.
- The 'eth' and 'solana' cases only log and return `null`, which the model covers as the `null` outcome.
- `findDKeyValueInObject`, `createHeaders`, `hexToBase64`, `urlToHash`, `imageToR2`, `extractHexDataEx`, `fetchRealmProfile*`, `scriptAddress`, `addressScript`, `packResponse`, `sendProfileQueue*`, `realmExists` (modelled only as row membership), `readFromD1` and the router are outside this model.

## Findings

| source | as written | input that shows it | evidently intended | confidence | as-written member | corrected member |
|---|---|---|---|---|---|---|
| src/utils.ts:289 | `data.response?.result?.candidates[0]?.atomical_id` indexes `candidates` without `?.`. When the result has no `candidates` this throws, the `catch` returns `null`, and a confirmed `atomical_id` is lost. | a 200 response with body `{"response":{"result":{"atomical_id":"abc"}}}` | `candidates?.[0]?.atomical_id`, returning `{ id: "abc", cid: undefined }` | low, not executed; it depends on whether the indexer always sends `candidates` | Realm.FetchRealmAtomicalIdAsWritten (shown by Realm.MissingCandidatesLosesId) | Realm.FetchRealmAtomicalId |

=== FILE: basics.dfy ===
/** Small value types shared by every module of the model. */
module Basics {

  /** JavaScript's `null`/`undefined` versus a present value. */
  datatype Option<+T> = None | Some(value: T)

  /** One element of a `Uint8Array`. */
  newtype byte = x: int | 0 <= x < 256
}

=== FILE: json.dfy ===
/** A tagged model of the JavaScript values the scans walk: what `JSON.parse`
    produces, plus the `Uint8Array` that a CBOR decode can produce. An object
    is an association list in the order `for...in` / `Object.keys` visits it. */
module JsonData {
  import opened Basics
  import opened Text

  datatype Json =
    | JNull
    | JBool(b: bool)
    | JNum(n: real)
    | JStr(s: string)
    | JArr(items: seq<Json>)
    | JObj(members: seq<Member>)
    | JBytes(data: seq<byte>)

  datatype Member = Member(key: string, value: Json)

  /** JavaScript truthiness (`null`, `false`, `0` and `""` are falsy). */
  predicate Truthy(v: Json)
  {
    match v
    case JNull => false
    case JBool(b) => b
    case JNum(n) => n != 0.0
    case JStr(s) => s != ""
    case _ => true
  }

  /** `typeof v === 'object' && v !== null`. */
  predicate IsObject(v: Json)
  {
    v.JObj? || v.JArr? || v.JBytes?
  }

  /** The number of own enumerable entries a scan visits. The entries of a
      `Uint8Array` are numbers, which no scan in this model matches or
      descends into, so they are not listed. */
  function Count(v: Json): nat
  {
    match v
    case JObj(ms) => |ms|
    case JArr(xs) => |xs|
    case _ => 0
  }

  /** The value of the `i`-th entry. */
  function Child(v: Json, i: nat): Json
    requires i < Count(v)
  {
    match v
    case JObj(ms) => ms[i].value
    case JArr(xs) => xs[i]
  }

  /** The key of the `i`-th entry: the member name, or the index spelled in decimal. */
  function KeyAt(v: Json, i: nat): string
    requires i < Count(v)
  {
    match v
    case JObj(ms) => ms[i].key
    case JArr(_) => NatToString(i)
  }

  /** `k in v` for an object-typed `v`: an own member, or an index or
      `length` of an array-like value. */
  predicate HasKey(v: Json, k: string)
  {
    match v
    case JObj(ms) => exists i :: 0 <= i < |ms| && ms[i].key == k
    case JArr(xs) => k == "length" || IsIndexKey(k, |xs|)
    case JBytes(d) => k == "length" || IsIndexKey(k, |d|)
    case _ => false
  }

  /** First member named `k` from position `i` on. */
  function Lookup(ms: seq<Member>, k: string): (r: Option<Json>)
    ensures r.Some? <==> exists i :: 0 <= i < |ms| && ms[i].key == k
  {
    if |ms| == 0 then None
    else if ms[0].key == k then Some(ms[0].value)
    else
      var r := Lookup(ms[1..], k);
      assert forall i :: 1 <= i < |ms| ==> ms[i] == ms[1..][i - 1];
      r
  }

  /** `v.k` for a property name that is never an array index or `length`
      (`response`, `result`, `success`, ...); `None` is `undefined`. */
  function Prop(v: Json, k: string): Option<Json>
  {
    match v
    case JObj(ms) => Lookup(ms, k)
    case _ => None
  }

  /** `null` or `undefined`. */
  predicate Nullish(o: Option<Json>)
  {
    o.None? || o.value.JNull?
  }

  /** Optional chaining `o?.k`. */
  function Chain(o: Option<Json>, k: string): Option<Json>
  {
    if Nullish(o) then None else Prop(o.value, k)
  }

  /** Truthiness of a possibly `undefined` value. */
  predicate OptTruthy(o: Option<Json>)
  {
    o.Some? && Truthy(o.value)
  }

  /** Every value of the tree, depth-first, each before its entries. */
  function Preorder(v: Json): (r: seq<Json>)
    ensures |r| >= 1 && r[0] == v
    decreases v, 1, 0
  {
    [v] + PreorderFrom(v, 0)
  }

  /** The subtrees of the entries `i ..` of `v`, one after the other. */
  function PreorderFrom(v: Json, i: nat): seq<Json>
    decreases v, 0, Count(v) - i
  {
    if i >= Count(v) then [] else Preorder(Child(v, i)) + PreorderFrom(v, i + 1)
  }

  /** Every value of an entry's subtree is a value of the whole tree. */
  lemma {:induction false} PreorderFromHas(v: Json, i: nat, m: nat, x: Json)
    requires i <= m < Count(v)
    requires x in Preorder(Child(v, m))
    ensures x in PreorderFrom(v, i)
    decreases m - i
  {
    if i < m {
      PreorderFromHas(v, i + 1, m, x);
    }
  }

  // ---------------------------------------------------------------- well-formed objects

  /** No two members share a name, as in every object `JSON.parse` or a
      CBOR map decode produces. The scans do not rely on it. */
  predicate UniqueKeys(ms: seq<Member>)
  {
    forall i, j :: 0 <= i < j < |ms| ==> ms[i].key != ms[j].key
  }

  /** Every object of the tree has unique member names. */
  predicate WellFormed(v: Json)
    decreases v, 1, 0
  {
    (v.JObj? ==> UniqueKeys(v.members)) && WellFormedFrom(v, 0)
  }

  predicate WellFormedFrom(v: Json, i: nat)
    decreases v, 0, Count(v) - i
  {
    i >= Count(v) || (WellFormed(Child(v, i)) && WellFormedFrom(v, i + 1))
  }

  /** With unique names, a property read finds the one member of that name. */
  lemma {:induction false} LookupUnique(ms: seq<Member>, i: nat)
    requires UniqueKeys(ms) && i < |ms|
    ensures Lookup(ms, ms[i].key) == Some(ms[i].value)
  {
    if i > 0 {
      assert ms[0].key != ms[i].key;
      assert UniqueKeys(ms[1..]) by {
        forall a, b | 0 <= a < b < |ms[1..]| ensures ms[1..][a].key != ms[1..][b].key {
          assert ms[1..][a] == ms[a + 1] && ms[1..][b] == ms[b + 1];
        }
      }
      LookupUnique(ms[1..], i - 1);
      assert ms[1..][i - 1] == ms[i];
    }
  }

  // ---------------------------------------------------------------- member walk

  /** One entry met by a scan: its key, its value, and the key of the entry
      holding it (the `parentKey` argument of the recursive call that
      enumerates it). */
  datatype Site = Site(parentKey: string, key: string, value: Json)

  /** The entries of the tree in the order a depth-first `for...in` scan
      meets them, each before the entries of its value; the value of an
      entry whose key is in `stop` is not entered. */
  function Walk(v: Json, parentKey: string, stop: set<string>): seq<Site>
    decreases v, 1, 0
  {
    WalkFrom(v, parentKey, stop, 0)
  }

  /** The walk over the entries `i ..` of `v`. */
  function WalkFrom(v: Json, parentKey: string, stop: set<string>, i: nat): seq<Site>
    decreases v, 0, Count(v) - i
  {
    if i >= Count(v) then []
    else
      var key := KeyAt(v, i);
      [Site(parentKey, key, Child(v, i))]
      + (if key in stop then [] else Walk(Child(v, i), key, stop))
      + WalkFrom(v, parentKey, stop, i + 1)
  }

  /** One step of the walk: the entry `i`, what lies below it, then the rest. */
  lemma WalkFromUnfold(v: Json, parentKey: string, stop: set<string>, i: nat)
    requires i < Count(v)
    ensures WalkFrom(v, parentKey, stop, i)
      == [Site(parentKey, KeyAt(v, i), Child(v, i))]
         + ((if KeyAt(v, i) in stop then [] else Walk(Child(v, i), KeyAt(v, i), stop))
            + WalkFrom(v, parentKey, stop, i + 1))
  {
  }

  /** The walk stays inside the tree: every entry it meets holds a value of
      the tree's pre-order. */
  lemma {:induction false} WalkInPreorder(v: Json, parentKey: string, stop: set<string>, s: Site)
    requires s in Walk(v, parentKey, stop)
    ensures s.value in PreorderFrom(v, 0)
    decreases v, 1, 0
  {
    WalkFromInPreorder(v, parentKey, stop, 0, s);
  }

  lemma {:induction false} WalkFromInPreorder(v: Json, parentKey: string, stop: set<string>, i: nat, s: Site)
    requires s in WalkFrom(v, parentKey, stop, i)
    ensures s.value in PreorderFrom(v, i)
    decreases v, 0, Count(v) - i
  {
    if i < Count(v) {
      var key := KeyAt(v, i);
      var c := Child(v, i);
      WalkFromUnfold(v, parentKey, stop, i);
      assert PreorderFrom(v, i) == Preorder(c) + PreorderFrom(v, i + 1);
      if s == Site(parentKey, key, c) {
        assert Preorder(c)[0] == c;
      } else if key !in stop && s in Walk(c, key, stop) {
        WalkInPreorder(c, key, stop, s);
        assert Preorder(c) == [c] + PreorderFrom(c, 0);
      } else {
        WalkFromInPreorder(v, parentKey, stop, i + 1, s);
      }
    }
  }

  /** The walk meets every entry of the root. */
  lemma {:induction false} WalkFromHasEntry(v: Json, parentKey: string, stop: set<string>, i: nat, m: nat)
    requires i <= m < Count(v)
    ensures Site(parentKey, KeyAt(v, m), Child(v, m)) in WalkFrom(v, parentKey, stop, i)
    decreases m - i
  {
    var key := KeyAt(v, i);
    var below := if key in stop then [] else Walk(Child(v, i), key, stop);
    var rest := WalkFrom(v, parentKey, stop, i + 1);
    assert WalkFrom(v, parentKey, stop, i) == [Site(parentKey, key, Child(v, i))] + below + rest;
    if i < m {
      WalkFromHasEntry(v, parentKey, stop, i + 1, m);
    }
  }

  /** The walk goes down to every depth: the entries of a met value are met
      too, unless the key it sits under is a stop key. */
  lemma {:induction false} WalkClosed(v: Json, parentKey: string, stop: set<string>, s: Site, m: nat)
    requires s in Walk(v, parentKey, stop) && s.key !in stop && m < Count(s.value)
    ensures Site(s.key, KeyAt(s.value, m), Child(s.value, m)) in Walk(v, parentKey, stop)
    decreases v, 1, 0
  {
    WalkFromClosed(v, parentKey, stop, 0, s, m);
  }

  lemma {:induction false} WalkFromClosed(v: Json, parentKey: string, stop: set<string>, i: nat, s: Site, m: nat)
    requires s in WalkFrom(v, parentKey, stop, i) && s.key !in stop && m < Count(s.value)
    ensures Site(s.key, KeyAt(s.value, m), Child(s.value, m)) in WalkFrom(v, parentKey, stop, i)
    decreases v, 0, Count(v) - i
  {
    var key := KeyAt(v, i);
    var c := Child(v, i);
    var here := Site(parentKey, key, c);
    var below := if key in stop then [] else Walk(c, key, stop);
    var rest := WalkFrom(v, parentKey, stop, i + 1);
    assert WalkFrom(v, parentKey, stop, i) == [here] + below + rest;
    if s == here {
      WalkFromHasEntry(c, key, stop, 0, m);
    } else if s in below {
      WalkClosed(c, key, stop, s, m);
    } else {
      WalkFromClosed(v, parentKey, stop, i + 1, s, m);
    }
  }
}

=== FILE: media.dfy ===
/** The media dispatch of `fetchHexData` (src/utils.ts): a `switch` on the
    parsed reference's protocol, prefix and type, with the network and the
    binary decoders supplied by an oracle. */
module Media {
  import opened Basics
  import opened Text
  import opened JsonData
  import opened Scan
  import opened Witness
  import opened Upstream
  import opened Urn

  // ---------------------------------------------------------------- getTxIdFromAtomicalId

  /** A transaction id (`null` for a missing id), or the `Invalid atomicalId` error. */
  datatype TxIdResult = TxId(txid: Option<string>) | InvalidAtomicalId

  /** `getTxIdFromAtomicalId`: the 64-character transaction hash of an
      atomical id `<txid>i<index>`. */
  function TxIdFromAtomicalId(atomicalId: Option<string>): (r: TxIdResult)
    ensures r == TxId(None) <==> atomicalId.None? || atomicalId.value == ""
    ensures r.TxId? && r.txid.Some? ==>
      |r.txid.value| == 64 && StartsWith(atomicalId.value, r.txid.value)
    ensures atomicalId.Some? && |atomicalId.value| == 64 ==> r == TxId(atomicalId)
    ensures r == InvalidAtomicalId <==>
      && atomicalId.Some? && atomicalId.value != "" && |atomicalId.value| != 64
      && !(|atomicalId.value| > 64 && atomicalId.value[64] == 'i' && 'i' !in atomicalId.value[..64])
  {
    if atomicalId.None? || atomicalId.value == "" then TxId(None)
    else
      var s := atomicalId.value;
      if |s| == 64 then TxId(Some(s))
      else if IndexOf(s, 'i') != 64 then InvalidAtomicalId
      else TxId(Some(s[..64]))
  }

  // ---------------------------------------------------------------- oracle and outcomes

  /** `hex.decode` then `btc.RawTx.decode` of `data.response`: a throw, or a
      transaction whose `witnesses` may be absent. */
  datatype TxDecode = TxThrows | Tx(witnesses: Option<seq<seq<seq<byte>>>>)

  /** `CBOR.decode`: a throw, or the decoded value. */
  datatype CborDecode = CborThrows | Cbor(value: Json)

  /** The ordinals content `fetch`: a network error, or a response. */
  datatype OrdFetch = OrdNetworkError | OrdResponse(ok: bool, bytes: seq<byte>)

  /** Everything outside the control flow: `api(path, index)` is
      `fetchApiServer(request, path, index)`, and the others stand for the
      decoders and the `fetch` of the ordinals endpoint. */
  datatype MediaOracle = MediaOracle(
    api: (string, int) -> Response,
    decodeTx: Option<Json> -> TxDecode,
    decompile: seq<byte> -> Option<seq<ScriptItem>>,
    cbor: seq<byte> -> CborDecode,
    ord: string -> OrdFetch)

  /** The `ImageData` returned: a hex payload with its extension, or raw bytes. */
  datatype ImageData = HexImage(hexExt: string, hexData: string) | ByteImage(byteExt: Option<string>, bytes: seq<byte>)

  /** The exceptions that escape `fetchHexData`. */
  datatype MediaError = InvalidAtomicalIdError | TxBodyUnparseable | TxDecodeThrows | CborDecodeThrows | OrdFetchThrows

  datatype MediaResult = Done(image: Option<ImageData>) | Thrown(error: MediaError)

  const Endpoint3: string := "blockchain.atomicals.get"
  /** Imported by src/utils.ts but not defined in src/consts.ts: a stand-in. */
  const Endpoint4: string := "PUBLIC_ELECTRUMX_ENDPOINT4"
  /** Imported by src/utils.ts but not defined in src/consts.ts: a stand-in. */
  const OrdBaseUrl: string := "PUBLIC_ORD_BASE_URL"

  /** `${endpoint}?params=["${arg}"]`. */
  function ParamsPath(endpoint: string, arg: string): string
  {
    endpoint + "?params=[\"" + arg + "\"]"
  }

  // ---------------------------------------------------------------- dispatch

  /** The branch of the nested `switch` a reference reaches. `atom` with a
      type other than `id`/`dat` has no `break` out of the prefix switch and
      runs the `ord` case. */
  datatype Route = AtomData(id: string) | OrdContent(id: string) | NoRoute

  function Classify(p: Option<ParsedId>): Route
  {
    if p.None? || p.value.protocol != "btc" then NoRoute
    else if p.value.prefix == "atom" && (p.value.kind == "id" || p.value.kind == "dat") then AtomData(p.value.id)
    else if p.value.prefix == "atom" || p.value.prefix == "ord" then OrdContent(p.value.id)
    else NoRoute
  }

  /** What the `try` block of the `atom` case ends in. */
  datatype Primary = Image(img: ImageData) | NoImage | TryAnotherWay

  /** The answer of `fetchApiServer` to the `try` block's request. */
  function PrimaryResponse(id: string, o: MediaOracle): Response
  {
    o.api(ParamsPath(Endpoint3, id), -1)
  }

  /** `data.response?.result?.mint_data`. */
  function MintData(data: Json): Option<Json>
  {
    Chain(Chain(Prop(data, "response"), "result"), "mint_data")
  }

  /** The `try` block: fetch the atomical and take the first `$b` payload of
      its `mint_data`. A failed status, an unparseable body, a falsy
      `success` and a `TypeError` of the scan all throw into the `catch`;
      a falsy body returns `null`. */
  function AtomPrimary(id: string, o: MediaOracle): (r: Primary)
    ensures !Ok(PrimaryResponse(id, o)) ==> r == TryAnotherWay
    ensures PrimaryResponse(id, o).body.Unparseable? ==> r == TryAnotherWay
    ensures Ok(PrimaryResponse(id, o)) && PrimaryResponse(id, o).body.JsonBody? ==>
      var data := PrimaryResponse(id, o).body.value;
      && (!Truthy(data) ==> r == NoImage)
      && (Truthy(data) && !OptTruthy(Prop(data, "success")) ==> r == TryAnotherWay)
      && (Truthy(data) && MintData(data).Some? && ExtractHexData(MintData(data).value, "") == ReadOfNull ==> r == TryAnotherWay)
      && ((Truthy(data) && OptTruthy(Prop(data, "success"))
           && (MintData(data).None? || ExtractHexData(MintData(data).value, "") == Entries([]))) ==> r == NoImage)
    ensures r.Image? ==>
      && Ok(PrimaryResponse(id, o)) && PrimaryResponse(id, o).body.JsonBody?
      && var data := PrimaryResponse(id, o).body.value;
      && Truthy(data) && OptTruthy(Prop(data, "success")) && MintData(data).Some?
      && var scan := ExtractHexData(MintData(data).value, "");
      && scan.Entries? && |scan.list| > 0
      && r.img == HexImage(FileExtension(scan.list[0].fileName), scan.list[0].hexData)
  {
    var res := PrimaryResponse(id, o);
    if !Ok(res) || res.body.Unparseable? then TryAnotherWay
    else
      var data := res.body.value;
      if !Truthy(data) then NoImage
      else if !OptTruthy(Prop(data, "success")) then TryAnotherWay
      else
        var mint := MintData(data);
        var scan := if mint.None? then Entries([]) else ExtractHexData(mint.value, "");
        match scan
        case ReadOfNull => TryAnotherWay
        case Entries(es) =>
          if |es| > 0 then Image(HexImage(es[0].ext, es[0].hexData)) else NoImage
  }

  /** Exactly the four failures of the `try` block reach the `catch`, and
      then the whole call is the fallback's. */
  lemma PrimaryFailureFallsBack(kind: string, id: string, o: MediaOracle)
    requires kind == "id" || kind == "dat"
    ensures AtomPrimary(id, o) == TryAnotherWay <==>
      || !Ok(PrimaryResponse(id, o))
      || PrimaryResponse(id, o).body.Unparseable?
      || (var data := PrimaryResponse(id, o).body.value;
          Truthy(data) && (!OptTruthy(Prop(data, "success"))
            || (MintData(data).Some? && ExtractHexData(MintData(data).value, "") == ReadOfNull)))
    ensures AtomPrimary(id, o) == TryAnotherWay ==>
      FetchHexData(Some(ParsedId("atom", "btc", kind, id)), o) == Fallback(id, o)
  {
  }

  /** A successful answer whose mint data holds no payload ends the call
      with `null`; the fallback is not tried. */
  lemma NoPayloadGivesNull(kind: string, id: string, o: MediaOracle, data: Json)
    requires kind == "id" || kind == "dat"
    requires Ok(PrimaryResponse(id, o)) && PrimaryResponse(id, o).body == JsonBody(data)
    requires Truthy(data) && OptTruthy(Prop(data, "success"))
    requires MintData(data).None? || ExtractHexData(MintData(data).value, "") == Entries([])
    ensures AtomPrimary(id, o) == NoImage
    ensures FetchHexData(Some(ParsedId("atom", "btc", kind, id)), o) == Done(None)
  {
  }

  /** Whenever the `try` block ends without an image and without throwing,
      the whole call gives `null`. */
  lemma PrimaryNoImageGivesNull(kind: string, id: string, o: MediaOracle)
    requires kind == "id" || kind == "dat"
    requires AtomPrimary(id, o) == NoImage
    ensures FetchHexData(Some(ParsedId("atom", "btc", kind, id)), o) == Done(None)
  {
  }

  /** A falsy body on the `try` block's request ends the call with `null`. */
  lemma FalsyBodyGivesNull(kind: string, id: string, o: MediaOracle, data: Json)
    requires kind == "id" || kind == "dat"
    requires Ok(PrimaryResponse(id, o)) && PrimaryResponse(id, o).body == JsonBody(data) && !Truthy(data)
    ensures FetchHexData(Some(ParsedId("atom", "btc", kind, id)), o) == Done(None)
  {
  }

  /** What one witness contributes to the loop: nothing (it does not
      decompile, its envelope decodes to a falsy value, or holds no byte
      array), a byte-array hit, or a CBOR decode that throws. */
  datatype WitnessOutcome = NoHit | Hit(hit: ByteHit) | CborThrew

  function Outcome(w: seq<byte>, o: MediaOracle): WitnessOutcome
  {
    match o.decompile(w)
    case None => NoHit
    case Some(items) =>
      match o.cbor(Flatten(Kept(items)))
      case CborThrows => CborThrew
      case Cbor(decoded) =>
        if !Truthy(decoded) then NoHit
        else match FindUint8ArrayData(decoded)
          case Some(h) => Hit(h)
          case None => NoHit
  }

  /** What the loop returns or throws at a witness that ends it. */
  function OutcomeResult(x: WitnessOutcome): MediaResult
  {
    match x
    case Hit(h) => Done(Some(ByteImage(Some(FileExtension(h.fileName)), h.data)))
    case CborThrew => Thrown(CborDecodeThrows)
    case NoHit => Done(None)
  }

  /** The loop over the witnesses in the `catch` block. */
  function ScanWitnesses(ws: seq<seq<byte>>, o: MediaOracle): (r: MediaResult)
    ensures r.Done? && r.image.Some? ==> r.image.value.ByteImage? && r.image.value.byteExt.Some?
    ensures r.Thrown? ==> r.error == CborDecodeThrows
  {
    if |ws| == 0 then Done(None)
    else match Outcome(ws[0], o)
      case NoHit => ScanWitnesses(ws[1..], o)
      case Hit(h) => Done(Some(ByteImage(Some(FileExtension(h.fileName)), h.data)))
      case CborThrew => Thrown(CborDecodeThrows)
  }

  /** The loop ends at the first witness that yields a hit or a throwing
      decode, with that witness's image or exception; it returns `null`
      exactly when no witness does. */
  lemma {:induction false} ScanWitnessesIsFirst(ws: seq<seq<byte>>, o: MediaOracle)
    ensures ScanWitnesses(ws, o) == Done(None) <==> forall j :: 0 <= j < |ws| ==> Outcome(ws[j], o).NoHit?
    ensures ScanWitnesses(ws, o) != Done(None) ==>
      exists k :: 0 <= k < |ws| && !Outcome(ws[k], o).NoHit?
        && (forall j :: 0 <= j < k ==> Outcome(ws[j], o).NoHit?)
        && ScanWitnesses(ws, o) == OutcomeResult(Outcome(ws[k], o))
    decreases |ws|
  {
    if |ws| > 0 {
      ScanWitnessesIsFirst(ws[1..], o);
      assert forall j :: 1 <= j < |ws| ==> ws[j] == ws[1..][j - 1];
      if Outcome(ws[0], o).NoHit? {
        if ScanWitnesses(ws, o) != Done(None) {
          var k :| 0 <= k < |ws[1..]| && !Outcome(ws[1..][k], o).NoHit?
            && (forall j :: 0 <= j < k ==> Outcome(ws[1..][j], o).NoHit?)
            && ScanWitnesses(ws[1..], o) == OutcomeResult(Outcome(ws[1..][k], o));
          assert ws[k + 1] == ws[1..][k];
          assert forall j :: 0 <= j < k + 1 ==> Outcome(ws[j], o).NoHit?;
        }
      } else {
        assert !Outcome(ws[0], o).NoHit? && ScanWitnesses(ws, o) == OutcomeResult(Outcome(ws[0], o));
      }
    }
  }

  /** The text `${txid}` puts in the fallback's request. */
  function TxIdText(t: Option<string>): string
  {
    if t.Some? then t.value else "null"
  }

  /** The `catch` block: read the raw transaction from mirror 0 and decode
      the envelope out of its witnesses. Only the id check, the JSON parse,
      the transaction decode and the CBOR decode throw; they are outside any
      `try`, so they escape. */
  function Fallback(id: string, o: MediaOracle): (r: MediaResult)
    ensures r == Thrown(InvalidAtomicalIdError) <==> TxIdFromAtomicalId(Some(id)) == InvalidAtomicalId
    ensures r.Done? && r.image.Some? ==> r.image.value.ByteImage? && r.image.value.byteExt.Some?
    ensures TxIdFromAtomicalId(Some(id)).TxId? ==>
      var res := o.api(ParamsPath(Endpoint4, TxIdText(TxIdFromAtomicalId(Some(id)).txid)), 0);
      && (!Ok(res) ==> r == Done(None))
      && (Ok(res) && res.body.Unparseable? ==> r == Thrown(TxBodyUnparseable))
      && (Ok(res) && res.body.JsonBody? && !Truthy(res.body.value) ==> r == Done(None))
      && (Ok(res) && res.body.JsonBody? && !OptTruthy(Prop(res.body.value, "success")) ==> r == Done(None))
  {
    match TxIdFromAtomicalId(Some(id))
    case InvalidAtomicalId => Thrown(InvalidAtomicalIdError)
    case TxId(t) =>
      var res := o.api(ParamsPath(Endpoint4, TxIdText(t)), 0);
      if !Ok(res) then Done(None)
      else match res.body
        case Unparseable => Thrown(TxBodyUnparseable)
        case JsonBody(data) =>
          if !Truthy(data) || !OptTruthy(Prop(data, "success")) then Done(None)
          else match o.decodeTx(Prop(data, "response"))
            case TxThrows => Thrown(TxDecodeThrows)
            case Tx(ws) => ScanWitnesses(Flatten(if ws.None? then [[]] else ws.value), o)
  }

  /** Once mirror 0 sends a truthy `success` for the transaction id, the
      fallback is the witness loop over the decoded transaction: `null`
      when no witness yields anything, otherwise the outcome of the first
      witness that does. */
  lemma FallbackScansWitnesses(id: string, t: string, o: MediaOracle, data: Json, ws: Option<seq<seq<seq<byte>>>>)
    requires TxIdFromAtomicalId(Some(id)) == TxId(Some(t))
    requires Ok(o.api(ParamsPath(Endpoint4, t), 0)) && o.api(ParamsPath(Endpoint4, t), 0).body == JsonBody(data)
    requires Truthy(data) && OptTruthy(Prop(data, "success"))
    requires o.decodeTx(Prop(data, "response")) == Tx(ws)
    ensures var witnesses := Flatten(if ws.None? then [[]] else ws.value);
      && Fallback(id, o) == ScanWitnesses(witnesses, o)
      && (Fallback(id, o) == Done(None) <==> forall j :: 0 <= j < |witnesses| ==> Outcome(witnesses[j], o).NoHit?)
  {
    ScanWitnessesIsFirst(Flatten(if ws.None? then [[]] else ws.value), o);
  }

  /** A transaction that does not decode escapes as an exception. */
  lemma FallbackTxDecodeThrows(id: string, t: string, o: MediaOracle, data: Json)
    requires TxIdFromAtomicalId(Some(id)) == TxId(Some(t))
    requires Ok(o.api(ParamsPath(Endpoint4, t), 0)) && o.api(ParamsPath(Endpoint4, t), 0).body == JsonBody(data)
    requires Truthy(data) && OptTruthy(Prop(data, "success"))
    requires o.decodeTx(Prop(data, "response")) == TxThrows
    ensures Fallback(id, o) == Thrown(TxDecodeThrows)
  {
  }

  /** The `ord` case: fetch the content by id; a falsy id or a failed status
      falls out of the switch with `null`. */
  function OrdPath(id: string, o: MediaOracle): (r: MediaResult)
    ensures id == "" ==> r == Done(None)
    ensures id != "" ==>
      && (o.ord(OrdBaseUrl + id).OrdResponse? && o.ord(OrdBaseUrl + id).ok ==>
            r == Done(Some(ByteImage(None, o.ord(OrdBaseUrl + id).bytes))))
      && (o.ord(OrdBaseUrl + id).OrdResponse? && !o.ord(OrdBaseUrl + id).ok ==> r == Done(None))
      && (o.ord(OrdBaseUrl + id).OrdNetworkError? ==> r == Thrown(OrdFetchThrows))
    ensures r.Done? && r.image.Some? ==> r.image.value.ByteImage? && r.image.value.byteExt.None?
  {
    if id == "" then Done(None)
    else match o.ord(OrdBaseUrl + id)
      case OrdNetworkError => Thrown(OrdFetchThrows)
      case OrdResponse(ok, bytes) => if ok then Done(Some(ByteImage(None, bytes))) else Done(None)
  }

  /** `fetchHexData(request, id)`. */
  function FetchHexData(p: Option<ParsedId>, o: MediaOracle): (r: MediaResult)
    ensures p.None? ==> r == Done(None)
    ensures p.Some? && p.value.protocol != "btc" ==> r == Done(None)
    ensures p.Some? && p.value.protocol == "btc" && p.value.prefix != "atom" && p.value.prefix != "ord" ==> r == Done(None)
    ensures r.Done? && r.image.Some? && r.image.value.HexImage? ==>
      p.Some? && p.value.prefix == "atom" && (p.value.kind == "id" || p.value.kind == "dat")
    ensures r == Thrown(InvalidAtomicalIdError) ==>
      p.Some? && p.value.prefix == "atom" && (p.value.kind == "id" || p.value.kind == "dat")
      && TxIdFromAtomicalId(Some(p.value.id)) == InvalidAtomicalId
  {
    match Classify(p)
    case NoRoute => Done(None)
    case OrdContent(id) => OrdPath(id, o)
    case AtomData(id) =>
      match AtomPrimary(id, o)
      case Image(img) => Done(Some(img))
      case NoImage => Done(None)
      case TryAnotherWay => Fallback(id, o)
  }

  /** `btc`/`atom` with any type other than `id`/`dat` behaves as `btc`/`ord`. */
  lemma AtomFallsThroughToOrd(kind: string, otherKind: string, id: string, o: MediaOracle)
    requires kind != "id" && kind != "dat"
    ensures FetchHexData(Some(ParsedId("atom", "btc", kind, id)), o)
         == FetchHexData(Some(ParsedId("ord", "btc", otherKind, id)), o)
         == OrdPath(id, o)
  {
  }

  /** On the `atom` route, the id error escapes exactly when the `try` block
      failed and the id is neither 64 characters nor `<64 chars>i...`. */
  lemma InvalidIdEscapes(kind: string, id: string, o: MediaOracle)
    requires kind == "id" || kind == "dat"
    ensures FetchHexData(Some(ParsedId("atom", "btc", kind, id)), o) == Thrown(InvalidAtomicalIdError)
        <==> AtomPrimary(id, o) == TryAnotherWay && TxIdFromAtomicalId(Some(id)) == InvalidAtomicalId
  {
  }

  /** The fallback only ever asks mirror 0. */
  lemma FallbackPinsMirrorZero(id: string, o1: MediaOracle, o2: MediaOracle)
    requires o1.(api := o2.api) == o2
    requires forall path :: o1.api(path, 0) == o2.api(path, 0)
    ensures Fallback(id, o1) == Fallback(id, o2)
  {
    ScanWitnessesSameOracle(o1, o2);
  }

  lemma ScanWitnessesSameOracle(o1: MediaOracle, o2: MediaOracle)
    requires o1.(api := o2.api) == o2
    ensures forall ws :: ScanWitnesses(ws, o1) == ScanWitnesses(ws, o2)
  {
    forall ws ensures ScanWitnesses(ws, o1) == ScanWitnesses(ws, o2) {
      ScanWitnessesAgree(ws, o1, o2);
    }
  }

  lemma {:induction false} ScanWitnessesAgree(ws: seq<seq<byte>>, o1: MediaOracle, o2: MediaOracle)
    requires o1.(api := o2.api) == o2
    ensures ScanWitnesses(ws, o1) == ScanWitnesses(ws, o2)
    decreases |ws|
  {
    if |ws| > 0 {
      ScanWitnessesAgree(ws[1..], o1, o2);
    }
  }

  /** When the atomical fetch succeeds and its `mint_data` holds `$b`
      payloads, the first payload is returned with the extension of the key
      it sits under. */
  lemma PrimaryReturnsFirstPayload(kind: string, id: string, o: MediaOracle, data: Json, mint: Json, es: seq<HexEntry>)
    requires kind == "id" || kind == "dat"
    requires Ok(o.api(ParamsPath(Endpoint3, id), -1)) && o.api(ParamsPath(Endpoint3, id), -1).body == JsonBody(data)
    requires Truthy(data) && OptTruthy(Prop(data, "success"))
    requires Chain(Chain(Prop(data, "response"), "result"), "mint_data") == Some(mint)
    requires ExtractHexData(mint, "") == Entries(es) && |es| > 0
    ensures FetchHexData(Some(ParsedId("atom", "btc", kind, id)), o)
         == Done(Some(HexImage(FileExtension(es[0].fileName), es[0].hexData)))
  {
    assert es[0] in es;
  }
}

=== FILE: proxy.dfy ===
/** The proxy handler of src/proxy.ts: rewrite the path, answer from the
    key-value cache when it holds the response, otherwise make as many
    attempts as there are mirrors, each against a freshly drawn random
    mirror, and cache the first good answer. */
module Proxy {
  import opened Basics
  import opened Text
  import opened JsonData
  import opened Upstream
  import opened Store

  /** The CORS allow-list of src/proxy.ts and src/consts.ts. */
  const AllowedOrigins: seq<string> := ["https://arc20.me", "http://localhost:5173"]

  /** `getAllowedOrigin(origin)`: the origin when it is on the list, else `''`.
      The same function appears as `getAllowedOrigin` in src/utils.ts. */
  function GetAllowedOrigin(origin: Option<string>): (r: string)
    ensures r != "" <==> origin.Some? && origin.value in AllowedOrigins
    ensures r != "" ==> r == origin.value
  {
    if origin.Some? && origin.value != "" && origin.value in AllowedOrigins then origin.value else ""
  }

  const ProxyPrefix: string := "/proxy"

  /** `pathname.replace(/^\/proxy/, '')`: only a leading `/proxy` goes. */
  function StripProxy(pathname: string): (r: string)
    ensures StartsWith(pathname, ProxyPrefix) ==> ProxyPrefix + r == pathname
    ensures !StartsWith(pathname, ProxyPrefix) ==> r == pathname
  {
    if StartsWith(pathname, ProxyPrefix) then pathname[|ProxyPrefix|..] else pathname
  }

  /** The forwarded path: the rewritten pathname, then `url.search` when it
      is not empty. It is the pathname and query with a leading `/proxy`
      removed. */
  function ForwardPath(pathname: string, search: string): (r: string)
    ensures StartsWith(pathname, ProxyPrefix) ==> ProxyPrefix + r == pathname + search
    ensures !StartsWith(pathname, ProxyPrefix) ==> r == pathname + search
  {
    var path := StripProxy(pathname);
    if search != "" then path + search else path
  }

  /** The parts of the incoming request the handler reads; `search` is
      `url.search`, empty or starting with `?`. */
  datatype ProxyRequest = ProxyRequest(pathname: string, search: string, origin: Option<string>)

  /** The handler's reply: the cached body, a mirror's body with the mirror
      in `X-Indexer`, or the status-503 `All API servers are unavailable`. */
  datatype ProxyReply =
    | FromCache(data: Json, allowOrigin: string)
    | FromMirror(data: Json, allowOrigin: string, indexer: string)
    | AllServersUnavailable

  /** The `put` handed to `ctx.waitUntil`. */
  datatype CacheWrite = CacheWrite(key: string, value: Json, ttl: nat)

  const CacheTtl: nat := 600

  /** An attempt whose response is ok and whose body parses. */
  predicate Usable(a: Attempt)
  {
    a.Answered? && Ok(a.response) && a.response.body.JsonBody?
  }

  /** The handler `fetch(request, env, ctx)`. `kv` is the cache namespace,
      `net(t, url)` the outcome of attempt `t`; `contacted` lists the mirror
      URLs requested. */
  method HandleProxy(req: ProxyRequest, kv: map<string, Json>, servers: seq<string>,
                     draw: nat -> nat, net: (nat, string) -> Attempt)
    returns (reply: ProxyReply, write: Option<CacheWrite>, contacted: seq<string>)
    ensures var key := CacheKey(ForwardPath(req.pathname, req.search));
      key in kv && Truthy(kv[key]) ==>
        reply == FromCache(kv[key], GetAllowedOrigin(req.origin)) && write.None? && contacted == []
    ensures |contacted| <= |servers|
    ensures forall t :: 0 <= t < |contacted| ==>
      contacted[t] == servers[ChosenIndex(servers, -1, draw, t)] + ForwardPath(req.pathname, req.search)
    ensures forall t :: 0 <= t < |contacted| - 1 ==> !Usable(net(t, contacted[t]))
    ensures reply.FromMirror? ==>
      && |contacted| > 0
      && var last := |contacted| - 1;
      && Usable(net(last, contacted[last]))
      && net(last, contacted[last]).response.body == JsonBody(reply.data)
      && reply.indexer == servers[ChosenIndex(servers, -1, draw, last)]
      && reply.allowOrigin == GetAllowedOrigin(req.origin)
      && write == Some(CacheWrite(CacheKey(ForwardPath(req.pathname, req.search)), reply.data, CacheTtl))
    ensures reply.FromCache? ==>
      var key := CacheKey(ForwardPath(req.pathname, req.search));
      key in kv && Truthy(kv[key])
    ensures reply.AllServersUnavailable? ==>
      && write.None? && |contacted| == |servers|
      && forall t :: 0 <= t < |contacted| ==> !Usable(net(t, contacted[t]))
  {
    var path := StripProxy(req.pathname);
    if req.search != "" {
      path := path + req.search;
    }
    var cacheKey := CacheKey(path);
    var allowedOrigin := GetAllowedOrigin(req.origin);
    contacted := [];

    if cacheKey in kv && Truthy(kv[cacheKey]) {
      return FromCache(kv[cacheKey], allowedOrigin), None, contacted;
    }

    var i := 0;
    while i < |servers|
      invariant 0 <= i <= |servers| && |contacted| == i
      invariant forall t :: 0 <= t < i ==> contacted[t] == servers[ChosenIndex(servers, -1, draw, t)] + path
      invariant forall t :: 0 <= t < i ==> !Usable(net(t, contacted[t]))
    {
      var randomIndex := draw(i) % |servers|;
      var apiUrl := servers[randomIndex] + path;
      contacted := contacted + [apiUrl];
      var attempt := net(i, apiUrl);
      if attempt.Answered? && Ok(attempt.response) {
        match attempt.response.body
        case JsonBody(data) =>
          return FromMirror(data, allowedOrigin, servers[randomIndex]), Some(CacheWrite(cacheKey, data, CacheTtl)), contacted;
        case Unparseable =>
      }
      i := i + 1;
    }
    return AllServersUnavailable, None, contacted;
  }
}

=== FILE: realm.dfy ===
/** The result shaping of `fetchRealmAtomicalId` (src/utils.ts): from the
    indexer's `get_realm_info` response to the confirmed id `id` and the
    candidate id `cid`, or `null`. */
module Realm {
  import opened Basics
  import opened JsonData
  import opened Upstream

  /** `{ id, cid }`; `None` is `null` or `undefined`. */
  datatype RealmIds = RealmIds(id: Option<Json>, cid: Option<Json>)

  /** A property read that may throw a `TypeError`. */
  datatype Access = Value(v: Option<Json>) | TypeError

  /** `x[0]`: throws on `null`/`undefined`; the first item of an array, the
      member `"0"` of an object, the first character of a string. */
  function Index0(x: Option<Json>): Access
  {
    if Nullish(x) then TypeError
    else match x.value
      case JArr(xs) => Value(if |xs| > 0 then Some(xs[0]) else None)
      case JObj(ms) => Value(Lookup(ms, "0"))
      case JStr(s) => Value(if |s| > 0 then Some(JStr([s[0]])) else None)
      case JBytes(d) => Value(if |d| > 0 then Some(JNum(d[0] as int as real)) else None)
      case _ => Value(None)
  }

  /** `data.response?.result`. */
  function ResultOf(data: Json): Option<Json>
  {
    Chain(Prop(data, "response"), "result")
  }

  /** `data.response?.result?.atomical_id`. */
  function ConfirmedId(data: Json): Option<Json>
  {
    Chain(ResultOf(data), "atomical_id")
  }

  /** `data.response?.result?.candidates[0]?.atomical_id`, as written: the
      chain guards `result` but not `candidates`, so a result without a
      `candidates` member throws. */
  function CandidateIdAsWritten(data: Json): Access
  {
    var result := ResultOf(data);
    if Nullish(result) then Value(None)
    else match Index0(Prop(result.value, "candidates"))
      case TypeError => TypeError
      case Value(c) => Value(Chain(c, "atomical_id"))
  }

  /** `data.response?.result?.candidates?.[0]?.atomical_id`. */
  function CandidateId(data: Json): Option<Json>
  {
    var candidates := Chain(ResultOf(data), "candidates");
    if Nullish(candidates) then None
    else match Index0(candidates)
      case TypeError => None
      case Value(c) => Chain(c, "atomical_id")
  }

  /** The returns after both ids are read: `null` when neither is truthy,
      `{ id: null, cid }` with only a candidate, `{ id, cid }` otherwise. */
  function Shape(id: Option<Json>, cid: Option<Json>): (r: Option<RealmIds>)
    ensures r.None? <==> !OptTruthy(id) && !OptTruthy(cid)
    ensures r.Some? ==> r.value.cid == cid
    ensures r.Some? && OptTruthy(id) ==> r.value.id == id
    ensures r.Some? && !OptTruthy(id) ==> r.value.id.None? && OptTruthy(cid)
  {
    if !OptTruthy(id) then (if !OptTruthy(cid) then None else Some(RealmIds(None, cid)))
    else Some(RealmIds(id, cid))
  }

  /** `fetchRealmAtomicalId` as written, given the `fetchApiServer` response.
      A failed status, an unparseable body and the `TypeError` of the
      candidate read are all caught and give `null`. */
  function FetchRealmAtomicalIdAsWritten(res: Response): (r: Option<RealmIds>)
    ensures !Ok(res) || res.body.Unparseable? ==> r.None?
    ensures Ok(res) && res.body.JsonBody? && !Truthy(res.body.value) ==> r.None?
    ensures Ok(res) && res.body.JsonBody? && CandidateIdAsWritten(res.body.value).TypeError? ==> r.None?
    ensures r.Some? ==> Ok(res) && res.body.JsonBody? && CandidateIdAsWritten(res.body.value) == Value(r.value.cid)
    ensures r.Some? ==>
      (OptTruthy(r.value.id) && r.value.id == ConfirmedId(res.body.value)) || (r.value.id.None? && OptTruthy(r.value.cid))
  {
    if !Ok(res) || res.body.Unparseable? then None
    else
      var data := res.body.value;
      if !Truthy(data) then None
      else match CandidateIdAsWritten(data)
        case TypeError => None
        case Value(cid) => Shape(ConfirmedId(data), cid)
  }

  /** `fetchRealmAtomicalId` with the candidate read guarded. */
  function FetchRealmAtomicalId(res: Response): (r: Option<RealmIds>)
    ensures !Ok(res) || res.body.Unparseable? ==> r.None?
    ensures Ok(res) && res.body.JsonBody? && !Truthy(res.body.value) ==> r.None?
    ensures r.Some? ==> Ok(res) && res.body.JsonBody? && r.value.cid == CandidateId(res.body.value)
    ensures r.Some? ==> OptTruthy(r.value.id) || (r.value.id.None? && OptTruthy(r.value.cid))
    ensures Ok(res) && res.body.JsonBody? && Truthy(res.body.value) && OptTruthy(ConfirmedId(res.body.value)) ==>
      r.Some? && r.value.id == ConfirmedId(res.body.value)
    ensures Ok(res) && res.body.JsonBody? && Truthy(res.body.value) && OptTruthy(CandidateId(res.body.value)) ==>
      r.Some?
  {
    if !Ok(res) || res.body.Unparseable? then None
    else
      var data := res.body.value;
      if !Truthy(data) then None
      else Shape(ConfirmedId(data), CandidateId(data))
  }

  /** When the result carries a `candidates` member, the guard changes nothing. */
  lemma GuardAgreesWithCandidates(res: Response)
    requires Ok(res) && res.body.JsonBody?
    requires var result := ResultOf(res.body.value);
      !Nullish(result) && !Nullish(Prop(result.value, "candidates"))
    ensures FetchRealmAtomicalIdAsWritten(res) == FetchRealmAtomicalId(res)
  {
  }

  /** A realm with a confirmed id but no `candidates` member: as written the
      id is lost and the call returns `null`. */
  lemma MissingCandidatesLosesId()
    ensures var data := JObj([Member("response", JObj([Member("result", JObj([Member("atomical_id", JStr("abc"))]))]))]);
      var res := Response(200, JsonBody(data));
      && FetchRealmAtomicalIdAsWritten(res).None?
      && FetchRealmAtomicalId(res) == Some(RealmIds(Some(JStr("abc")), None))
  {
    var result := JObj([Member("atomical_id", JStr("abc"))]);
    var data := JObj([Member("response", JObj([Member("result", result)]))]);
    assert ResultOf(data) == Some(result);
    assert Prop(result, "candidates") == None;
    assert ConfirmedId(data) == Some(JStr("abc"));
  }
}

=== FILE: scan.dfy ===
/** The deep scans over decoded JSON in src/utils.ts: `getFileExtension`,
    `findObjectWithKey`, `extractHexData`, `findUint8ArrayData` and
    `extractImages`. Each visits entries in enumeration order, depth-first. */
module Scan {
  import opened Basics
  import opened Text
  import opened JsonData

  /** `getFileExtension`: the text after the last `.`, or `png` without one. */
  function FileExtension(fileName: string): string
  {
    var parts := Split(fileName, '.');
    if |parts| > 1 then parts[|parts| - 1] else "png"
  }

  /** The extension is `png` exactly for names without a dot; otherwise it is
      the dot-free tail that follows the last dot of the name. */
  lemma FileExtensionSpec(fileName: string)
    ensures var ext := FileExtension(fileName);
      && ('.' !in fileName ==> ext == "png")
      && ('.' in fileName ==>
            && '.' !in ext
            && |ext| < |fileName|
            && fileName[|fileName| - |ext| - 1] == '.'
            && fileName[|fileName| - |ext|..] == ext)
  {
    SplitCount(fileName, '.');
    if '.' in fileName {
      LastPiece(fileName, '.');
    }
  }

  // ---------------------------------------------------------------- findObjectWithKey

  /** `findObjectWithKey(data, targetKey)`: `null` for a non-object; the value
      itself when it has the key; otherwise the first match among its entries. */
  function FindObjectWithKey(v: Json, k: string): (r: Option<Json>)
    ensures r.Some? ==> IsObject(r.value) && HasKey(r.value, k) && r.value in Preorder(v)
    ensures !IsObject(v) ==> r.None?
    ensures IsObject(v) && HasKey(v, k) ==> r == Some(v)
    decreases v, 1, 0
  {
    if !IsObject(v) then None
    else if HasKey(v, k) then Some(v)
    else FindObjectFrom(v, k, 0)
  }

  /** The loop over the entries `i ..` of `v`. */
  function FindObjectFrom(v: Json, k: string, i: nat): (r: Option<Json>)
    ensures r.Some? ==> IsObject(r.value) && HasKey(r.value, k) && r.value in PreorderFrom(v, i)
    decreases v, 0, Count(v) - i
  {
    if i >= Count(v) then None
    else match FindObjectWithKey(Child(v, i), k)
      case Some(o) => Some(o)
      case None => FindObjectFrom(v, k, i + 1)
  }

  /** The first value of a list that is an object having key `k`. */
  function FirstWithKey(vs: seq<Json>, k: string): Option<Json>
  {
    if |vs| == 0 then None
    else if IsObject(vs[0]) && HasKey(vs[0], k) then Some(vs[0])
    else FirstWithKey(vs[1..], k)
  }

  lemma {:induction false} FirstWithKeyAppend(a: seq<Json>, b: seq<Json>, k: string)
    ensures FirstWithKey(a + b, k) == (if FirstWithKey(a, k).Some? then FirstWithKey(a, k) else FirstWithKey(b, k))
    decreases |a|
  {
    if |a| > 0 {
      FirstWithKeyAppend(a[1..], b, k);
      assert (a + b)[1..] == a[1..] + b;
    } else {
      assert a + b == b;
    }
  }

  /** The search returns the first object with the key in a depth-first,
      parent-before-entries walk of the whole tree. */
  lemma {:induction false} FindObjectIsFirstInPreorder(v: Json, k: string)
    ensures FindObjectWithKey(v, k) == FirstWithKey(Preorder(v), k)
    decreases v, 1, 0
  {
    FirstWithKeyAppend([v], PreorderFrom(v, 0), k);
    assert ([v] + PreorderFrom(v, 0))[1..] == PreorderFrom(v, 0);
    if IsObject(v) && !HasKey(v, k) {
      FindObjectFromIsFirst(v, k, 0);
    } else if !IsObject(v) {
      assert Count(v) == 0;
    }
  }

  lemma {:induction false} FindObjectFromIsFirst(v: Json, k: string, i: nat)
    ensures FindObjectFrom(v, k, i) == FirstWithKey(PreorderFrom(v, i), k)
    decreases v, 0, Count(v) - i
  {
    if i < Count(v) {
      FindObjectIsFirstInPreorder(Child(v, i), k);
      FindObjectFromIsFirst(v, k, i + 1);
      FirstWithKeyAppend(Preorder(Child(v, i)), PreorderFrom(v, i + 1), k);
    }
  }

  /** The search finds nothing exactly when no object of the tree has the key. */
  lemma FindObjectNoneIff(v: Json, k: string)
    ensures FindObjectWithKey(v, k).None? <==>
      forall x :: x in Preorder(v) ==> !(IsObject(x) && HasKey(x, k))
  {
    FindObjectIsFirstInPreorder(v, k);
    FirstWithKeyNoneIff(Preorder(v), k);
  }

  lemma {:induction false} FirstWithKeyNoneIff(vs: seq<Json>, k: string)
    ensures FirstWithKey(vs, k).None? <==> forall x :: x in vs ==> !(IsObject(x) && HasKey(x, k))
    decreases |vs|
  {
    if |vs| > 0 {
      FirstWithKeyNoneIff(vs[1..], k);
      assert vs == [vs[0]] + vs[1..];
    }
  }

  // ---------------------------------------------------------------- extractHexData

  /** One `$b` payload with the key it was found under. */
  datatype HexEntry = HexEntry(fileName: string, ext: string, hexData: string)

  /** The outcome of `extractHexData`: the payloads, or the `TypeError` thrown
      when a `$b` member holds `null` (the source reads `null.$b`). */
  datatype HexResult = Entries(list: seq<HexEntry>) | ReadOfNull

  /** Every member name and array index spelled anywhere in the tree. */
  ghost function Keys(v: Json): set<string>
    decreases v, 1, 0
  {
    KeysFrom(v, 0)
  }

  ghost function KeysFrom(v: Json, i: nat): set<string>
    decreases v, 0, Count(v) - i
  {
    if i >= Count(v) then {} else {KeyAt(v, i)} + Keys(Child(v, i)) + KeysFrom(v, i + 1)
  }

  /** The hex string carried by the value `p` of a `$b` member: `p` itself
      when it is a string, else its own `$b` member when that is a string. */
  function StringPayload(p: Json): Option<string>
  {
    match p
    case JStr(s) => Some(s)
    case JObj(ms) =>
      (match Lookup(ms, "$b")
       case Some(JStr(s)) => Some(s)
       case _ => None)
    case _ => None
  }

  /** The entry for the value `p` of a `$b` member: reading `null.$b`
      throws; a string payload gives one entry named by the parent key;
      anything else gives nothing. */
  function PayloadEntry(p: Json, parentKey: string): HexResult
  {
    if p.JNull? then ReadOfNull
    else match StringPayload(p)
      case Some(s) => Entries([HexEntry(parentKey, FileExtension(parentKey), s)])
      case None => Entries([])
  }

  /** `result.concat(...)`, with a throw on either side winning. */
  function Cat(a: HexResult, b: HexResult): HexResult
  {
    if a.ReadOfNull? || b.ReadOfNull? then ReadOfNull else Entries(a.list + b.list)
  }

  /** `extractHexData(obj, parentKey)`. */
  function ExtractHexData(v: Json, parentKey: string): (r: HexResult)
    ensures r.Entries? ==> forall e :: e in r.list ==> e.ext == FileExtension(e.fileName)
    ensures r.Entries? ==> forall e :: e in r.list ==> e.fileName == parentKey || e.fileName in Keys(v)
    ensures !IsObject(v) ==> r == Entries([])
    decreases v, 1, 0
  {
    if !IsObject(v) then Entries([]) else ExtractHexFrom(v, parentKey, 0)
  }

  /** The loop of `extractHexData` over the entries `i ..` of `v`. */
  function ExtractHexFrom(v: Json, parentKey: string, i: nat): (r: HexResult)
    ensures r.Entries? ==> forall e :: e in r.list ==> e.ext == FileExtension(e.fileName)
    ensures r.Entries? ==> forall e :: e in r.list ==> e.fileName == parentKey || e.fileName in KeysFrom(v, i)
    decreases v, 0, Count(v) - i
  {
    if i >= Count(v) then Entries([])
    else
      var key := KeyAt(v, i);
      Cat(if key == "$b" then PayloadEntry(Child(v, i), parentKey) else ExtractHexData(Child(v, i), key),
          ExtractHexFrom(v, parentKey, i + 1))
  }

  // The reference: the `$b` members met by a walk that does not enter `$b` values.

  const HexStop: set<string> := {"$b"}

  /** A `$b` member meeting a `null` value. */
  predicate NullPayloadSite(s: Site)
  {
    s.key == "$b" && s.value.JNull?
  }

  /** `e` is the entry a `$b` member with a string payload stands for. */
  predicate PayloadSite(s: Site, e: HexEntry)
  {
    && s.key == "$b" && StringPayload(s.value) == Some(e.hexData)
    && e.fileName == s.parentKey && e.ext == FileExtension(s.parentKey)
  }

  /** The entries of the string-payload `$b` members of a walk, in walk order. */
  function Payloads(sites: seq<Site>): seq<HexEntry>
  {
    if |sites| == 0 then []
    else
      var s := sites[0];
      var here := if s.key == "$b" && StringPayload(s.value).Some?
        then [HexEntry(s.parentKey, FileExtension(s.parentKey), StringPayload(s.value).value)] else [];
      here + Payloads(sites[1..])
  }

  /** The payload entries are exactly those some member of the walk stands for. */
  lemma {:induction false} PayloadsHas(sites: seq<Site>)
    ensures forall e :: e in Payloads(sites) <==> exists j :: 0 <= j < |sites| && PayloadSite(sites[j], e)
  {
    if |sites| > 0 {
      PayloadsHas(sites[1..]);
      assert forall j :: 1 <= j < |sites| ==> sites[j] == sites[1..][j - 1];
      forall e | exists j :: 1 <= j < |sites| && PayloadSite(sites[j], e)
        ensures e in Payloads(sites[1..])
      {
        var j :| 1 <= j < |sites| && PayloadSite(sites[j], e);
        assert PayloadSite(sites[1..][j - 1], e);
      }
    }
  }

  /** Folding the walk member by member, the way the scan's loop combines results. */
  function Gather(sites: seq<Site>): HexResult
  {
    if |sites| == 0 then Entries([])
    else Cat(if sites[0].key == "$b" then PayloadEntry(sites[0].value, sites[0].parentKey) else Entries([]),
             Gather(sites[1..]))
  }

  lemma {:induction false} GatherAppend(a: seq<Site>, b: seq<Site>)
    ensures Gather(a + b) == Cat(Gather(a), Gather(b))
    decreases |a|
  {
    if |a| == 0 {
      assert a + b == b;
      CatEmpty(Gather(b));
    } else {
      assert (a + b)[0] == a[0] && (a + b)[1..] == a[1..] + b;
      GatherAppend(a[1..], b);
      var h := if a[0].key == "$b" then PayloadEntry(a[0].value, a[0].parentKey) else Entries([]);
      CatAssoc(h, Gather(a[1..]), Gather(b));
    }
  }

  /** The scan is the fold of its walk. */
  lemma {:induction false} ExtractHexIsGather(v: Json, parentKey: string)
    ensures ExtractHexData(v, parentKey) == Gather(Walk(v, parentKey, HexStop))
    decreases v, 1, 0
  {
    if IsObject(v) {
      ExtractHexFromIsGather(v, parentKey, 0);
    } else {
      assert Count(v) == 0;
    }
  }

  lemma {:induction false} ExtractHexFromIsGather(v: Json, parentKey: string, i: nat)
    ensures ExtractHexFrom(v, parentKey, i) == Gather(WalkFrom(v, parentKey, HexStop, i))
    decreases v, 0, Count(v) - i
  {
    if i < Count(v) {
      var key := KeyAt(v, i);
      var c := Child(v, i);
      var site := Site(parentKey, key, c);
      var below := if key in HexStop then [] else Walk(c, key, HexStop);
      var rest := WalkFrom(v, parentKey, HexStop, i + 1);
      WalkFromUnfold(v, parentKey, HexStop, i);
      GatherAppend([site], below + rest);
      GatherAppend(below, rest);
      ExtractHexFromIsGather(v, parentKey, i + 1);
      GatherSingle(site);
      var restG := Gather(rest);
      if key == "$b" {
        assert Gather(below) == Entries([]);
        CatEmpty(restG);
      } else {
        ExtractHexIsGather(c, key);
        CatEmpty(Cat(ExtractHexData(c, key), restG));
      }
    }
  }

  /** The fold of one member. */
  lemma GatherSingle(s: Site)
    ensures Gather([s]) == if s.key == "$b" then PayloadEntry(s.value, s.parentKey) else Entries([])
  {
    assert [s][1..] == [];
    CatEmpty(if s.key == "$b" then PayloadEntry(s.value, s.parentKey) else Entries([]));
  }

  lemma CatAssoc(a: HexResult, b: HexResult, c: HexResult)
    ensures Cat(Cat(a, b), c) == Cat(a, Cat(b, c))
  {
    if a.Entries? && b.Entries? && c.Entries? {
      assert (a.list + b.list) + c.list == a.list + (b.list + c.list);
    }
  }

  /** `Entries([])` is the unit of `Cat`. */
  lemma CatEmpty(a: HexResult)
    ensures Cat(a, Entries([])) == a && Cat(Entries([]), a) == a
  {
    if a.Entries? {
      assert a.list + [] == a.list && [] + a.list == a.list;
    }
  }

  /** The fold throws iff the walk meets a `null` payload, and otherwise
      yields the string payloads of the walk in order. */
  lemma {:induction false} GatherSpec(sites: seq<Site>)
    ensures Gather(sites) == ReadOfNull <==> exists j :: 0 <= j < |sites| && NullPayloadSite(sites[j])
    ensures Gather(sites).Entries? ==> Gather(sites).list == Payloads(sites)
  {
    if |sites| > 0 {
      GatherSpec(sites[1..]);
      assert forall j :: 1 <= j < |sites| ==> sites[j] == sites[1..][j - 1];
      if exists j :: 1 <= j < |sites| && NullPayloadSite(sites[j]) {
        var j :| 1 <= j < |sites| && NullPayloadSite(sites[j]);
        assert NullPayloadSite(sites[1..][j - 1]);
      }
    }
  }

  /** `extractHexData` against its reference. It throws exactly when the
      walk, which does not enter `$b` values, meets a `$b` member holding
      `null`. Otherwise it returns one entry per string payload of a met
      `$b` member, in walk order, named by the key of the entry holding
      it, and nothing else. */
  lemma ExtractHexSpec(v: Json, parentKey: string)
    ensures var sites := Walk(v, parentKey, HexStop);
      var r := ExtractHexData(v, parentKey);
      && (r == ReadOfNull <==> exists j :: 0 <= j < |sites| && NullPayloadSite(sites[j]))
      && (r.Entries? ==> r.list == Payloads(sites))
      && (r.Entries? ==> forall e :: e in r.list <==> exists j :: 0 <= j < |sites| && PayloadSite(sites[j], e))
  {
    ExtractHexIsGather(v, parentKey);
    GatherSpec(Walk(v, parentKey, HexStop));
    PayloadsHas(Walk(v, parentKey, HexStop));
  }

  /** An object holding one `$b` member yields at most that payload: the scan
      does not look inside a `$b` value for further payloads. */
  lemma PayloadNotDescended(p: Json, parentKey: string)
    requires !p.JNull?
    ensures var r := ExtractHexData(JObj([Member("$b", p)]), parentKey);
      && r.Entries? && |r.list| <= 1
      && (p.JStr? ==> r.list == [HexEntry(parentKey, FileExtension(parentKey), p.s)])
  {
    var v := JObj([Member("$b", p)]);
    assert KeyAt(v, 0) == "$b";
    assert Child(v, 0) == p;
    assert ExtractHexFrom(v, parentKey, 1) == Entries([]);
    var here := PayloadEntry(p, parentKey);
    assert here.Entries? && |here.list| <= 1;
    assert ExtractHexFrom(v, parentKey, 0) == Entries(here.list + []);
  }

  /** A `null` payload is reported as the `TypeError` wherever it sits among
      the object's members. */
  lemma NullPayloadThrows(pre: seq<Member>, rest: seq<Member>, parentKey: string)
    ensures ExtractHexData(JObj(pre + [Member("$b", JNull)] + rest), parentKey) == ReadOfNull
  {
    var v := JObj(pre + [Member("$b", JNull)] + rest);
    NullEntryThrows(v, parentKey, 0, |pre|);
  }

  lemma {:induction false} NullEntryThrows(v: Json, parentKey: string, i: nat, m: nat)
    requires i <= m < Count(v) && KeyAt(v, m) == "$b" && Child(v, m) == JNull
    ensures ExtractHexFrom(v, parentKey, i) == ReadOfNull
    decreases m - i
  {
    if i < m {
      NullEntryThrows(v, parentKey, i + 1, m);
    }
  }

  // ---------------------------------------------------------------- findUint8ArrayData

  /** A byte array found by `findUint8ArrayData`, with the key naming it. */
  datatype ByteHit = ByteHit(fileName: string, data: seq<byte>)

  /** `findUint8ArrayData(obj, parentKey, result)`. `None` stands for handing
      back the `result` argument: `null` at the top, and at depth an empty
      placeholder the caller discards. The `$ct` branch of the source never
      fires (the value is an object there, never a string), so no content
      type is recorded. */
  function FindBytesIn(v: Json, parentKey: string): (r: Option<ByteHit>)
    ensures r.Some? ==> JBytes(r.value.data) in PreorderFrom(v, 0)
    ensures r.Some? ==> r.value.fileName == parentKey || r.value.fileName in Keys(v)
    decreases v, 1, 0
  {
    if !IsObject(v) then None else FindBytesFrom(v, parentKey, 0)
  }

  /** The loop of `findUint8ArrayData` over the entries `i ..` of `v`. A byte
      array entry is returned at once, even an empty one; a nested search
      counts only when it found a non-empty array. */
  function FindBytesFrom(v: Json, parentKey: string, i: nat): (r: Option<ByteHit>)
    ensures r.Some? ==> JBytes(r.value.data) in PreorderFrom(v, i)
    ensures r.Some? ==> r.value.fileName == parentKey || r.value.fileName in KeysFrom(v, i)
    decreases v, 0, Count(v) - i
  {
    if i >= Count(v) then None
    else
      var key := KeyAt(v, i);
      var c := Child(v, i);
      if c.JBytes? then Some(ByteHit(if parentKey == "" then key else parentKey, c.data))
      else if IsObject(c) || c.JNull? then
        var found := FindBytesIn(c, key);
        if found.Some? && |found.value.data| > 0 then found
        else FindBytesFrom(v, parentKey, i + 1)
      else FindBytesFrom(v, parentKey, i + 1)
  }

  /** The top-level call `findUint8ArrayData(decoded)`. */
  function FindUint8ArrayData(v: Json): Option<ByteHit>
  {
    FindBytesIn(v, "")
  }

  /** The data of the first byte array in a list of values. */
  function FirstBytes(vs: seq<Json>): Option<seq<byte>>
  {
    if |vs| == 0 then None
    else if vs[0].JBytes? then Some(vs[0].data)
    else FirstBytes(vs[1..])
  }

  lemma {:induction false} FirstBytesAppend(a: seq<Json>, b: seq<Json>)
    ensures FirstBytes(a + b) == (if FirstBytes(a).Some? then FirstBytes(a) else FirstBytes(b))
    decreases |a|
  {
    if |a| > 0 {
      FirstBytesAppend(a[1..], b);
      assert (a + b)[1..] == a[1..] + b;
    } else {
      assert a + b == b;
    }
  }

  function HitData(o: Option<ByteHit>): Option<seq<byte>>
  {
    if o.Some? then Some(o.value.data) else None
  }

  /** No byte array in the list is empty. */
  predicate NoEmptyBytes(vs: seq<Json>)
  {
    forall x :: x in vs && x.JBytes? ==> |x.data| > 0
  }

  /** When no byte array in the tree is empty, the search returns the first
      byte array below the root in a depth-first walk, and nothing only when
      there is none. */
  lemma {:induction false} FindBytesIsFirstInPreorder(v: Json, parentKey: string)
    requires NoEmptyBytes(PreorderFrom(v, 0))
    ensures HitData(FindBytesIn(v, parentKey)) == FirstBytes(PreorderFrom(v, 0))
    decreases v, 1, 0
  {
    if IsObject(v) {
      FindBytesFromIsFirst(v, parentKey, 0);
    } else {
      assert Count(v) == 0;
    }
  }

  lemma {:induction false} FindBytesFromIsFirst(v: Json, parentKey: string, i: nat)
    requires NoEmptyBytes(PreorderFrom(v, i))
    ensures HitData(FindBytesFrom(v, parentKey, i)) == FirstBytes(PreorderFrom(v, i))
    decreases v, 0, Count(v) - i
  {
    if i < Count(v) {
      var c := Child(v, i);
      var sub := Preorder(c);
      assert PreorderFrom(v, i) == sub + PreorderFrom(v, i + 1);
      FirstBytesAppend(sub, PreorderFrom(v, i + 1));
      assert NoEmptyBytes(PreorderFrom(v, i + 1));
      assert NoEmptyBytes(PreorderFrom(c, 0)) by {
        assert sub == [c] + PreorderFrom(c, 0);
      }
      FindBytesFromIsFirst(v, parentKey, i + 1);
      FirstBytesAppend([c], PreorderFrom(c, 0));
      assert ([c] + PreorderFrom(c, 0))[1..] == PreorderFrom(c, 0);
      if !c.JBytes? {
        FindBytesIsFirstInPreorder(c, KeyAt(v, i));
        if !IsObject(c) {
          assert Count(c) == 0;
        }
      }
    }
  }

  /** Without that hypothesis the search can miss data: an empty byte array
      ends the scan of its object, so the non-empty array after it is never
      seen, and the empty result is discarded by the caller. */
  lemma EmptyBytesHideSibling()
    ensures var inner := JObj([Member("x", JBytes([])), Member("y", JBytes([1]))]);
      && JBytes([1]) in Preorder(JObj([Member("o", inner)]))
      && FindUint8ArrayData(JObj([Member("o", inner)])) == None
  {
    var inner := JObj([Member("x", JBytes([])), Member("y", JBytes([1]))]);
    var v := JObj([Member("o", inner)]);
    assert KeyAt(inner, 0) == "x" && Child(inner, 0) == JBytes([]);
    assert FindBytesIn(inner, "o") == Some(ByteHit("o", []));
    assert KeyAt(v, 0) == "o" && Child(v, 0) == inner;
    assert FindBytesFrom(v, "", 1) == None;
    assert Child(inner, 1) == JBytes([1]) && JBytes([1]) in Preorder(JBytes([1]));
    PreorderFromHas(inner, 0, 1, JBytes([1]));
    PreorderFromHas(v, 0, 0, JBytes([1]));
  }

  /** The name a hit gets: `parentKey || key`. */
  function HitName(s: Site): string
  {
    if s.parentKey == "" then s.key else s.parentKey
  }

  /** The first entry of a walk whose value is a byte array, named as the
      scan names it. */
  function FirstByteSite(sites: seq<Site>): Option<ByteHit>
  {
    if |sites| == 0 then None
    else if sites[0].value.JBytes? then Some(ByteHit(HitName(sites[0]), sites[0].value.data))
    else FirstByteSite(sites[1..])
  }

  lemma {:induction false} FirstByteSiteAppend(a: seq<Site>, b: seq<Site>)
    ensures FirstByteSite(a + b) == (if FirstByteSite(a).Some? then FirstByteSite(a) else FirstByteSite(b))
    decreases |a|
  {
    if |a| > 0 {
      FirstByteSiteAppend(a[1..], b);
      assert (a + b)[1..] == a[1..] + b;
    } else {
      assert a + b == b;
    }
  }

  /** No entry's subtree holds an empty byte array. An entry of the root
      may itself be an empty byte array: the scan returns it at once. */
  predicate NoEmptyBelow(v: Json)
  {
    forall m :: 0 <= m < Count(v) ==> NoEmptyBytes(PreorderFrom(Child(v, m), 0))
  }

  /** When no byte array below the root's entries is empty, the whole hit is
      fixed: it is the first byte-array entry of the full walk, named by the
      key of the entry holding it, or by its own key at the top
      (`parentKey || key`). An empty array directly under the root is such
      an entry, and is returned with no data. */
  lemma {:induction false} FindBytesIsFirstSite(v: Json, parentKey: string)
    requires NoEmptyBelow(v)
    ensures FindBytesIn(v, parentKey) == FirstByteSite(Walk(v, parentKey, {}))
    decreases v, 1, 0
  {
    if IsObject(v) {
      FindBytesFromIsFirstSite(v, parentKey, 0);
    } else {
      assert Count(v) == 0;
    }
  }

  lemma {:induction false} FindBytesFromIsFirstSite(v: Json, parentKey: string, i: nat)
    requires NoEmptyBelow(v)
    ensures FindBytesFrom(v, parentKey, i) == FirstByteSite(WalkFrom(v, parentKey, {}, i))
    decreases v, 0, Count(v) - i
  {
    if i < Count(v) {
      var key := KeyAt(v, i);
      var c := Child(v, i);
      var below := Walk(c, key, {});
      var rest := WalkFrom(v, parentKey, {}, i + 1);
      WalkFromUnfold(v, parentKey, {}, i);
      FirstByteSiteCons(Site(parentKey, key, c), below + rest);
      if !c.JBytes? {
        assert NoEmptyBytes(PreorderFrom(c, 0));
        ChildrenNoEmpty(c);
        FindBytesFromIsFirstSite(v, parentKey, i + 1);
        FirstByteSiteAppend(below, rest);
        FindBytesIsFirstSite(c, key);
        NestedHitNonEmpty(c, key);
        if !IsObject(c) {
          assert Count(c) == 0;
        }
      }
    }
  }

  /** A tree without empty byte arrays below its root has none below any
      of its entries either. */
  lemma ChildrenNoEmpty(v: Json)
    requires NoEmptyBytes(PreorderFrom(v, 0))
    ensures NoEmptyBelow(v)
  {
    forall m, x | 0 <= m < Count(v) && x in PreorderFrom(Child(v, m), 0)
      ensures x.JBytes? ==> |x.data| > 0
    {
      assert Preorder(Child(v, m)) == [Child(v, m)] + PreorderFrom(Child(v, m), 0);
      PreorderFromHas(v, 0, m, x);
    }
  }

  /** An empty byte array directly under the root is returned as it is, with
      no data, and hides a later non-empty one. */
  lemma TopLevelEmptyBytesReturned()
    ensures FindUint8ArrayData(JObj([Member("x", JBytes([])), Member("y", JBytes([1]))])) == Some(ByteHit("x", []))
  {
    var v := JObj([Member("x", JBytes([])), Member("y", JBytes([1]))]);
    assert KeyAt(v, 0) == "x" && Child(v, 0) == JBytes([]);
  }

  lemma FirstByteSiteCons(s: Site, t: seq<Site>)
    ensures FirstByteSite([s] + t) == if s.value.JBytes? then Some(ByteHit(HitName(s), s.value.data)) else FirstByteSite(t)
  {
    assert ([s] + t)[0] == s && ([s] + t)[1..] == t;
  }

  /** Without empty byte arrays, a nested hit is never the discarded placeholder. */
  lemma NestedHitNonEmpty(v: Json, parentKey: string)
    requires NoEmptyBytes(PreorderFrom(v, 0))
    ensures FindBytesIn(v, parentKey).Some? ==> |FindBytesIn(v, parentKey).value.data| > 0
  {
  }

  /** A byte array nested one level down is named after the entry holding
      it, so its own name does not decide the extension. */
  lemma NestedHitNamedByParent()
    ensures var v := JObj([Member("a", JObj([Member("x.gif", JBytes([1]))]))]);
      && FindUint8ArrayData(v) == Some(ByteHit("a", [1]))
      && FileExtension("a") == "png"
  {
    var inner := JObj([Member("x.gif", JBytes([1]))]);
    var v := JObj([Member("a", inner)]);
    assert KeyAt(inner, 0) == "x.gif" && Child(inner, 0) == JBytes([1]);
    assert FindBytesIn(inner, "a") == Some(ByteHit("a", [1]));
    assert KeyAt(v, 0) == "a" && Child(v, 0) == inner;
    FileExtensionSpec("a");
  }

  // ---------------------------------------------------------------- extractImages

  /** `extractImages(data)`: the values of every `image` or `img` member,
      depth-first, without looking inside those values. */
  function ExtractImages(v: Json): (r: seq<Json>)
    ensures forall x :: x in r ==> x in PreorderFrom(v, 0)
    decreases v, 1, 0
  {
    ExtractImagesFrom(v, 0)
  }

  function ExtractImagesFrom(v: Json, i: nat): (r: seq<Json>)
    ensures forall x :: x in r ==> x in PreorderFrom(v, i)
    decreases v, 0, Count(v) - i
  {
    if i >= Count(v) then []
    else
      var key := KeyAt(v, i);
      var c := Child(v, i);
      (if key == "image" || key == "img" then [c]
       else if IsObject(c) then ExtractImages(c)
       else [])
      + ExtractImagesFrom(v, i + 1)
  }

  /** An image value is collected whole, whatever it contains. */
  lemma ImageValueNotDescended(key: string, x: Json)
    requires key == "image" || key == "img"
    ensures ExtractImages(JObj([Member(key, x)])) == [x]
  {
    var v := JObj([Member(key, x)]);
    assert KeyAt(v, 0) == key;
    assert Child(v, 0) == x;
    assert ExtractImagesFrom(v, 1) == [];
    assert ExtractImagesFrom(v, 0) == [x] + [];
  }

  /** Every `image`/`img` member of the top-level object is collected. */
  lemma {:induction false} TopLevelImagesCollected(v: Json, i: nat, m: nat)
    requires i <= m < Count(v) && (KeyAt(v, m) == "image" || KeyAt(v, m) == "img")
    ensures Child(v, m) in ExtractImagesFrom(v, i)
    decreases m - i
  {
    if i < m {
      TopLevelImagesCollected(v, i + 1, m);
    }
  }

  // The reference: the `image`/`img` entries met by a walk that does not
  // enter their values.

  const ImageKeys: set<string> := {"image", "img"}

  /** The values of the `image`/`img` entries of a walk, in walk order. */
  function ImageValues(sites: seq<Site>): seq<Json>
  {
    if |sites| == 0 then []
    else (if sites[0].key in ImageKeys then [sites[0].value] else []) + ImageValues(sites[1..])
  }

  /** The collected values are exactly those of the walk's image entries. */
  lemma {:induction false} ImageValuesHas(sites: seq<Site>)
    ensures forall x :: x in ImageValues(sites) <==> exists j :: 0 <= j < |sites| && sites[j].key in ImageKeys && sites[j].value == x
  {
    if |sites| > 0 {
      ImageValuesHas(sites[1..]);
      assert forall j :: 1 <= j < |sites| ==> sites[j] == sites[1..][j - 1];
      forall x | exists j :: 1 <= j < |sites| && sites[j].key in ImageKeys && sites[j].value == x
        ensures x in ImageValues(sites[1..])
      {
        var j :| 1 <= j < |sites| && sites[j].key in ImageKeys && sites[j].value == x;
        assert sites[1..][j - 1] == sites[j];
      }
    }
  }

  lemma {:induction false} ImageValuesAppend(a: seq<Site>, b: seq<Site>)
    ensures ImageValues(a + b) == ImageValues(a) + ImageValues(b)
    decreases |a|
  {
    if |a| == 0 {
      assert a + b == b;
    } else {
      assert (a + b)[0] == a[0] && (a + b)[1..] == a[1..] + b;
      ImageValuesAppend(a[1..], b);
    }
  }

  /** The scan collects the image entries of its walk. */
  lemma {:induction false} ExtractImagesIsWalk(v: Json, parentKey: string)
    ensures ExtractImages(v) == ImageValues(Walk(v, parentKey, ImageKeys))
    decreases v, 1, 0
  {
    ExtractImagesFromIsWalk(v, parentKey, 0);
  }

  lemma {:induction false} ExtractImagesFromIsWalk(v: Json, parentKey: string, i: nat)
    ensures ExtractImagesFrom(v, i) == ImageValues(WalkFrom(v, parentKey, ImageKeys, i))
    decreases v, 0, Count(v) - i
  {
    if i < Count(v) {
      var key := KeyAt(v, i);
      var c := Child(v, i);
      var site := Site(parentKey, key, c);
      var below := if key in ImageKeys then [] else Walk(c, key, ImageKeys);
      var rest := WalkFrom(v, parentKey, ImageKeys, i + 1);
      WalkFromUnfold(v, parentKey, ImageKeys, i);
      ImageValuesAppend([site], below + rest);
      ImageValuesAppend(below, rest);
      ImageValuesSingle(site);
      ExtractImagesFromIsWalk(v, parentKey, i + 1);
      if key !in ImageKeys {
        ExtractImagesIsWalk(c, key);
        ExtractImagesStep(v, i);
      }
    }
  }

  lemma ImageValuesSingle(s: Site)
    ensures ImageValues([s]) == if s.key in ImageKeys then [s.value] else []
  {
    assert [s][1..] == [];
  }

  /** One step of the scan's loop past an entry that is not an image. */
  lemma ExtractImagesStep(v: Json, i: nat)
    requires i < Count(v) && KeyAt(v, i) !in ImageKeys
    ensures ExtractImagesFrom(v, i) == ExtractImages(Child(v, i)) + ExtractImagesFrom(v, i + 1)
  {
    if !IsObject(Child(v, i)) {
      assert Count(Child(v, i)) == 0;
    }
  }

  /** `extractImages` against its reference: the values of exactly the
      `image`/`img` entries met by a walk that does not enter their values,
      in walk order. */
  lemma ExtractImagesSpec(v: Json)
    ensures var sites := Walk(v, "", ImageKeys);
      && ExtractImages(v) == ImageValues(sites)
      && forall x :: x in ExtractImages(v) <==> exists j :: 0 <= j < |sites| && sites[j].key in ImageKeys && sites[j].value == x
  {
    ExtractImagesIsWalk(v, "");
    ImageValuesHas(Walk(v, "", ImageKeys));
  }

  /** Image entries are collected at every depth: below any entry the walk
      enters, an `image`/`img` entry's value is collected. */
  lemma NestedImagesCollected(v: Json, s: Site, m: nat)
    requires s in Walk(v, "", ImageKeys) && s.key !in ImageKeys
    requires m < Count(s.value) && KeyAt(s.value, m) in ImageKeys
    ensures Child(s.value, m) in ExtractImages(v)
  {
    WalkClosed(v, "", ImageKeys, s, m);
    var sites := Walk(v, "", ImageKeys);
    var t := Site(s.key, KeyAt(s.value, m), Child(s.value, m));
    var j :| 0 <= j < |sites| && sites[j] == t;
    ExtractImagesSpec(v);
  }
}

=== FILE: store.dfy ===
/** The insert / update / invalidate decision of `saveToD1` (src/utils.ts),
    over an abstract `realms` table and the key-value response cache. */
module Store {
  import opened Basics
  import opened JsonData

  /** One row of `realms`, minus the `RealmName` key. The two blob columns
      hold the serialized `meta` and `profile`; serialization is not modelled. */
  datatype Row = Row(
    id: Option<Json>, number: Option<Json>, minter: Option<Json>, owner: Option<Json>,
    avatar: Option<Json>, banner: Option<Json>, meta: Json, profile: Json)

  /** The `realms` table keyed by realm name, and the key-value cache. */
  datatype Stores = Stores(rows: map<string, Row>, kv: map<string, Json>)

  datatype SaveOutcome = SaveOutcome(after: Stores, returned: bool)

  /** The key of a cached response: `cache:` and the name or path. */
  function CacheKey(s: string): string
  {
    "cache:" + s
  }

  /** `meta?.<field>`. */
  function MetaField(meta: Json, field: string): Option<Json>
  {
    Chain(Some(meta), field)
  }

  /** The row `_save()` inserts. */
  function NewRow(meta: Json, profile: Json): Row
  {
    Row(MetaField(meta, "id"), MetaField(meta, "number"), MetaField(meta, "mint"), MetaField(meta, "owner"),
        MetaField(meta, "image"), MetaField(meta, "banner"), meta, profile)
  }

  /** The row after `_update()`: owner, avatar, banner and both blobs. */
  function UpdatedRow(stored: Row, meta: Json, profile: Json): Row
  {
    stored.(owner := MetaField(meta, "owner"), avatar := MetaField(meta, "image"),
         banner := MetaField(meta, "banner"), meta := meta, profile := profile)
  }

  /** `saveToD1(env, realm, meta, profile, action)`. `insertOk` is the
      `success` flag of the insert statement. The update is not awaited in
      the source; it is taken to complete. */
  function SaveToD1(s: Stores, realm: string, meta: Json, profile: Json, action: Option<string>, insertOk: bool): (r: SaveOutcome)
    ensures realm !in s.rows ==> r.returned == insertOk && r.after.kv == s.kv
    ensures realm !in s.rows && insertOk ==> r.after.rows == s.rows[realm := NewRow(meta, profile)]
    ensures realm !in s.rows && !insertOk ==> r.after == s
    ensures realm in s.rows ==> !r.returned
    ensures realm in s.rows && action != Some("update") ==> r.after == s
    ensures realm in s.rows && action == Some("update") ==>
      && realm in r.after.rows
      && r.after.rows[realm].id == s.rows[realm].id
      && r.after.rows[realm].number == s.rows[realm].number
      && r.after.rows[realm].minter == s.rows[realm].minter
      && r.after.rows[realm].owner == MetaField(meta, "owner")
      && r.after.rows[realm].avatar == MetaField(meta, "image")
      && r.after.rows[realm].banner == MetaField(meta, "banner")
      && r.after.rows[realm].meta == meta && r.after.rows[realm].profile == profile
      && r.after.kv.Keys == s.kv.Keys - {CacheKey(realm)}
      && forall k :: k in r.after.kv ==> r.after.kv[k] == s.kv[k]
    ensures s.rows.Keys <= r.after.rows.Keys
    ensures realm in s.rows ==> r.after.rows.Keys == s.rows.Keys
    ensures realm !in s.rows ==> r.after.rows.Keys <= s.rows.Keys + {realm}
    ensures forall k :: k in s.rows && k != realm ==> k in r.after.rows && r.after.rows[k] == s.rows[k]
  {
    if realm !in s.rows then
      if insertOk then SaveOutcome(s.(rows := s.rows[realm := NewRow(meta, profile)]), true)
      else SaveOutcome(s, false)
    else if action == Some("update") then
      SaveOutcome(Stores(s.rows[realm := UpdatedRow(s.rows[realm], meta, profile)], s.kv - {CacheKey(realm)}), false)
    else SaveOutcome(s, false)
  }

  /** Once a realm is stored, a later save without the `update` action
      changes nothing and returns `false`: the first stored row stays. */
  lemma FirstSaveWins(s: Stores, realm: string, m1: Json, p1: Json, a1: Option<string>,
                      m2: Json, p2: Json, a2: Option<string>, ok2: bool)
    requires realm !in s.rows
    requires a2 != Some("update")
    ensures var s1 := SaveToD1(s, realm, m1, p1, a1, true).after;
      && s1.rows[realm] == NewRow(m1, p1)
      && SaveToD1(s1, realm, m2, p2, a2, ok2) == SaveOutcome(s1, false)
  {
  }

  /** An update followed by the same update leaves the same stores. */
  lemma UpdateIdempotent(s: Stores, realm: string, meta: Json, profile: Json, ok: bool)
    requires realm in s.rows
    ensures var s1 := SaveToD1(s, realm, meta, profile, Some("update"), ok).after;
      SaveToD1(s1, realm, meta, profile, Some("update"), ok).after == s1
  {
    var s1 := SaveToD1(s, realm, meta, profile, Some("update"), ok).after;
    assert UpdatedRow(s1.rows[realm], meta, profile) == s1.rows[realm];
    assert s1.rows[realm := s1.rows[realm]] == s1.rows;
    assert s1.kv - {CacheKey(realm)} == s1.kv;
  }
}

=== FILE: text.dfy ===
/** The string helpers of JavaScript that the model needs, written out over
    `seq<char>`: `split` and `join` with a one-character separator,
    `indexOf`, `startsWith`, and the decimal spelling of an array index. */
module Text {

  /** `s.split(sep)`: the pieces between the separators, at least one. */
  function Split(s: string, sep: char): (parts: seq<string>)
    ensures |parts| >= 1
    ensures forall i :: 0 <= i < |parts| ==> sep !in parts[i]
    decreases |s|
  {
    if |s| == 0 then [""]
    else
      var rest := Split(s[1..], sep);
      if s[0] == sep then [""] + rest
      else [[s[0]] + rest[0]] + rest[1..]
  }

  /** `parts.join(sep)`. */
  function Join(parts: seq<string>, sep: char): string
  {
    if |parts| == 0 then ""
    else if |parts| == 1 then parts[0]
    else parts[0] + [sep] + Join(parts[1..], sep)
  }

  predicate NoSeparator(parts: seq<string>, sep: char)
  {
    forall i :: 0 <= i < |parts| ==> sep !in parts[i]
  }

  /** Joining the pieces of a split gives back the string. */
  lemma {:induction false} JoinSplit(s: string, sep: char)
    ensures Join(Split(s, sep), sep) == s
    decreases |s|
  {
    if |s| > 0 {
      JoinSplit(s[1..], sep);
      var rest := Split(s[1..], sep);
      if s[0] == sep {
        assert Split(s, sep) == [""] + rest;
        assert Join([""] + rest, sep) == "" + [sep] + Join(rest, sep) by {
          assert ([""] + rest)[1..] == rest;
        }
        assert s == [s[0]] + s[1..];
      } else {
        var parts := Split(s, sep);
        assert parts == [[s[0]] + rest[0]] + rest[1..];
        if |rest| == 1 {
          assert s == [s[0]] + rest[0];
        } else {
          assert parts[1..] == rest[1..];
          assert Join(rest, sep) == rest[0] + [sep] + Join(rest[1..], sep);
          assert s == [s[0]] + s[1..];
        }
      }
    }
  }

  /** A piece free of the separator, then the separator, splits off as one piece. */
  lemma {:induction false} SplitCons(a: string, t: string, sep: char)
    requires sep !in a
    ensures Split(a + [sep] + t, sep) == [a] + Split(t, sep)
    decreases |a|
  {
    if |a| == 0 {
      assert a + [sep] + t == [sep] + t;
      assert ([sep] + t)[1..] == t;
    } else {
      SplitCons(a[1..], t, sep);
      assert (a + [sep] + t)[1..] == a[1..] + [sep] + t;
      assert [a[0]] + a[1..] == a;
    }
  }

  /** A string without the separator splits into itself. */
  lemma {:induction false} SplitNoSeparator(a: string, sep: char)
    requires sep !in a
    ensures Split(a, sep) == [a]
    decreases |a|
  {
    if |a| > 0 {
      SplitNoSeparator(a[1..], sep);
      assert [a[0]] + a[1..] == a;
    }
  }

  /** Splitting a join of separator-free pieces gives back the pieces. */
  lemma {:induction false} SplitJoin(parts: seq<string>, sep: char)
    requires |parts| >= 1
    requires NoSeparator(parts, sep)
    ensures Split(Join(parts, sep), sep) == parts
    decreases |parts|
  {
    if |parts| == 1 {
      SplitNoSeparator(parts[0], sep);
    } else {
      SplitJoin(parts[1..], sep);
      SplitCons(parts[0], Join(parts[1..], sep), sep);
      assert [parts[0]] + parts[1..] == parts;
    }
  }

  /** The join of all pieces but the last, the separator, then the last piece. */
  lemma {:induction false} JoinSnoc(parts: seq<string>, sep: char)
    requires |parts| >= 2
    ensures Join(parts, sep) == Join(parts[..|parts| - 1], sep) + [sep] + parts[|parts| - 1]
    decreases |parts|
  {
    if |parts| > 2 {
      JoinSnoc(parts[1..], sep);
      assert parts[1..][..|parts| - 2] == parts[..|parts| - 1][1..];
    }
  }

  /** A split has more than one piece exactly when the separator occurs. */
  lemma SplitCount(s: string, sep: char)
    ensures |Split(s, sep)| > 1 <==> sep in s
  {
    var parts := Split(s, sep);
    JoinSplit(s, sep);
    if |parts| == 1 {
      assert s == parts[0];
    } else {
      assert s == parts[0] + [sep] + Join(parts[1..], sep);
      assert s[|parts[0]|] == sep;
    }
  }

  /** The first piece of a split is the text before the first separator. */
  lemma FirstPiece(s: string, sep: char)
    ensures var p := Split(s, sep)[0];
      && |p| <= |s| && s[..|p|] == p && sep !in p
      && (sep in s <==> |p| < |s|)
      && (|p| < |s| ==> s[|p|] == sep)
  {
    var parts := Split(s, sep);
    JoinSplit(s, sep);
    if |parts| > 1 {
      assert s == parts[0] + [sep] + Join(parts[1..], sep);
    }
    SplitCount(s, sep);
  }

  /** The last piece of a split with more than one piece is the text after
      the last separator. */
  lemma LastPiece(s: string, sep: char)
    requires sep in s
    ensures var parts := Split(s, sep);
      var last := parts[|parts| - 1];
      && |last| < |s| && s[|s| - |last| - 1] == sep && s[|s| - |last|..] == last
  {
    var parts := Split(s, sep);
    SplitCount(s, sep);
    JoinSplit(s, sep);
    JoinSnoc(parts, sep);
    var front := Join(parts[..|parts| - 1], sep);
    assert s == front + [sep] + parts[|parts| - 1];
  }

  /** `s.indexOf(c)`: the first position of `c`, or -1. */
  function IndexOf(s: string, c: char): (r: int)
    ensures -1 <= r < |s|
    ensures r == -1 <==> c !in s
    ensures r >= 0 ==> r < |s| && s[r] == c && c !in s[..r]
  {
    if |s| == 0 then -1
    else if s[0] == c then 0
    else
      var k := IndexOf(s[1..], c);
      assert s == [s[0]] + s[1..];
      if k == -1 then -1
      else
        assert s[..k + 1] == [s[0]] + s[1..][..k];
        k + 1
  }

  predicate StartsWith(s: string, prefix: string)
  {
    |prefix| <= |s| && s[..|prefix|] == prefix
  }

  /** `sub` occurs in `s` starting at position `i`. */
  predicate OccursAt<T(==)>(s: seq<T>, sub: seq<T>, i: nat)
  {
    i + |sub| <= |s| && s[i..i + |sub|] == sub
  }

  predicate ContainsSeq<T(==)>(s: seq<T>, sub: seq<T>)
  {
    exists i: nat | i <= |s| :: OccursAt(s, sub, i)
  }

  function DigitChar(d: nat): char
    requires d < 10
  {
    ['0', '1', '2', '3', '4', '5', '6', '7', '8', '9'][d]
  }

  /** `String(n)` for an array index: its decimal spelling. */
  function NatToString(n: nat): string
  {
    if n < 10 then [DigitChar(n)] else NatToString(n / 10) + [DigitChar(n % 10)]
  }

  /** `k` spells one of the indices `0 .. count - 1`. */
  predicate IsIndexKey(k: string, count: nat)
  {
    exists i :: 0 <= i < count && NatToString(i) == k
  }
}

=== FILE: upstream.dfy ===
/** The mirror failover of `fetchApiServer` (src/utils.ts): as many attempts
    as there are mirrors, each against a freshly drawn random mirror unless
    an index is pinned; the first response with a success status wins, otherwise a 503. */
module Upstream {
  import opened JsonData

  /** A response body as `response.json()` sees it: JSON, or text that does
      not parse. */
  datatype Body = JsonBody(value: Json) | Unparseable

  datatype Response = Response(status: int, body: Body)

  /** `response.ok`. */
  predicate Ok(r: Response)
  {
    200 <= r.status <= 299
  }

  /** One `fetch`: a network error, or a response. */
  datatype Attempt = NetworkError | Answered(response: Response)

  predicate AttemptOk(a: Attempt)
  {
    a.Answered? && Ok(a.response)
  }

  /** The mirror list of src/consts.ts. */
  const ApiServers: seq<string> := ["https://ep.wizz.cash/proxy", "https://ep.atomicalmarket.com/proxy"]

  /** The `All API servers are unavailable` response. */
  const AllUnavailable: Response := Response(503, Unparseable)

  /** The mirror used by attempt `t`: the pinned index when there is one
      (`index > -1`), otherwise `Math.floor(Math.random() * n)`, whose value
      the oracle `draw` supplies as any natural reduced into range. */
  function ChosenIndex(servers: seq<string>, pinned: int, draw: nat -> nat, t: nat): (k: nat)
    requires |servers| > 0 && pinned < |servers|
    ensures k < |servers|
  {
    if pinned > -1 then pinned else draw(t) % |servers|
  }

  function AttemptUrl(servers: seq<string>, path: string, pinned: int, draw: nat -> nat, t: nat): string
    requires |servers| > 0 && pinned < |servers|
  {
    servers[ChosenIndex(servers, pinned, draw, t)] + "/" + path
  }

  /** `fetchApiServer(request, path, index)`. `net(t, url)` is what attempt
      `t` against `url` produces; `tried` lists the URLs contacted. */
  method FetchApiServer(servers: seq<string>, path: string, pinned: int, draw: nat -> nat, net: (nat, string) -> Attempt)
    returns (r: Response, tried: seq<string>)
    requires pinned < |servers|
    ensures |tried| <= |servers|
    ensures forall t :: 0 <= t < |tried| ==> tried[t] == AttemptUrl(servers, path, pinned, draw, t)
    ensures pinned >= 0 ==> forall t :: 0 <= t < |tried| ==> tried[t] == servers[pinned] + "/" + path
    ensures forall t :: 0 <= t < |tried| - 1 ==> !AttemptOk(net(t, tried[t]))
    ensures Ok(r) ==> |tried| > 0 && net(|tried| - 1, tried[|tried| - 1]) == Answered(r)
    ensures !Ok(r) ==> r == AllUnavailable && |tried| == |servers|
    ensures !Ok(r) ==> forall t :: 0 <= t < |tried| ==> !AttemptOk(net(t, tried[t]))
  {
    tried := [];
    var i := 0;
    while i < |servers|
      invariant 0 <= i <= |servers| && |tried| == i
      invariant forall t :: 0 <= t < i ==> tried[t] == AttemptUrl(servers, path, pinned, draw, t)
      invariant forall t :: 0 <= t < i ==> !AttemptOk(net(t, tried[t]))
    {
      var randomIndex := draw(i) % |servers|;
      if pinned > -1 {
        randomIndex := pinned;
      }
      var apiUrl := servers[randomIndex] + "/" + path;
      tried := tried + [apiUrl];
      var attempt := net(i, apiUrl);
      if attempt.Answered? && Ok(attempt.response) {
        return attempt.response, tried;
      }
      i := i + 1;
    }
    return AllUnavailable, tried;
  }

  /** `fetchApiServer(request, path, 0)` over the two mirrors of
      src/consts.ts, as the fallback of `fetchHexData` calls it: every
      attempt, at most two, goes to the first mirror. */
  method FetchFromFirstMirror(path: string, draw: nat -> nat, net: (nat, string) -> Attempt)
    returns (r: Response, tried: seq<string>)
    ensures |tried| <= 2
    ensures forall t :: 0 <= t < |tried| ==> tried[t] == "https://ep.wizz.cash/proxy/" + path
    ensures Ok(r) ==> |tried| > 0 && net(|tried| - 1, tried[|tried| - 1]) == Answered(r)
    ensures !Ok(r) ==> r == AllUnavailable && |tried| == 2
  {
    r, tried := FetchApiServer(ApiServers, path, 0, draw, net);
  }
}

=== FILE: urn.dfy ===
/** The media-reference parser: `prefix:protocol:type:id[/suffix]`, with
    repeated colon-separated segments dropped before the fields are read
    (src/utils.ts, `removeDuplicatePrefixes` and `parseAtomicalIdfromURN`). */
module Urn {
  import opened Basics
  import opened Text

  /** The parsed reference. `kind` is the URN's `type` segment. */
  datatype ParsedId = ParsedId(prefix: string, protocol: string, kind: string, id: string)

  predicate Distinct<T(==)>(xs: seq<T>)
  {
    forall i, j :: 0 <= i < j < |xs| ==> xs[i] != xs[j]
  }

  /** The segments with every repeat dropped, first occurrences kept in order.
      Defined from the end, the way the loop of the source consumes its input. */
  function Dedup(xs: seq<string>): seq<string>
  {
    if |xs| == 0 then []
    else
      var init := xs[..|xs| - 1];
      if xs[|xs| - 1] in init then Dedup(init) else Dedup(init) + [xs[|xs| - 1]]
  }

  /** The loop of `removeDuplicatePrefixes`: a `seen` set and an output list. */
  method DedupSegments(parts: seq<string>) returns (result: seq<string>)
    ensures result == Dedup(parts)
    ensures Distinct(result)
    ensures forall x :: x in result <==> x in parts
  {
    var seen: set<string> := {};
    result := [];
    var i := 0;
    while i < |parts|
      invariant 0 <= i <= |parts|
      invariant result == Dedup(parts[..i])
      invariant forall x :: x in seen <==> x in parts[..i]
    {
      assert parts[..i + 1][..i] == parts[..i];
      if parts[i] !in seen {
        result := result + [parts[i]];
        seen := seen + {parts[i]};
      }
      i := i + 1;
    }
    assert parts[..|parts|] == parts;
    DedupElements(parts);
    DedupDistinct(parts);
  }

  /** Deduplication keeps exactly the elements of its input. */
  lemma {:induction false} DedupElements(xs: seq<string>)
    ensures forall x :: x in Dedup(xs) <==> x in xs
    decreases |xs|
  {
    if |xs| > 0 {
      var init := xs[..|xs| - 1];
      DedupElements(init);
      assert xs == init + [xs[|xs| - 1]];
    }
  }

  /** Deduplication leaves no element twice. */
  lemma {:induction false} DedupDistinct(xs: seq<string>)
    ensures Distinct(Dedup(xs))
    decreases |xs|
  {
    if |xs| > 0 {
      var init := xs[..|xs| - 1];
      DedupDistinct(init);
      DedupElements(init);
    }
  }

  /** A list without repeats is its own deduplication. */
  lemma {:induction false} DedupOfDistinct(xs: seq<string>)
    requires Distinct(xs)
    ensures Dedup(xs) == xs
    decreases |xs|
  {
    if |xs| > 0 {
      var init := xs[..|xs| - 1];
      assert Distinct(init);
      DedupOfDistinct(init);
      assert xs[|xs| - 1] !in init by {
        forall i | 0 <= i < |init| ensures init[i] != xs[|xs| - 1] {
          assert init[i] == xs[i];
        }
      }
      assert xs == init + [xs[|xs| - 1]];
    }
  }

  /** Deduplicating twice is deduplicating once. */
  lemma DedupIdempotent(xs: seq<string>)
    ensures Dedup(Dedup(xs)) == Dedup(xs)
  {
    DedupDistinct(xs);
    DedupOfDistinct(Dedup(xs));
  }

  /** Position of the first occurrence of `x`. */
  function FirstIndex(xs: seq<string>, x: string): (r: nat)
    requires x in xs
    ensures r < |xs| && xs[r] == x && x !in xs[..r]
  {
    if xs[0] == x then 0
    else
      assert xs == [xs[0]] + xs[1..];
      var k := FirstIndex(xs[1..], x);
      assert xs[..k + 1] == [xs[0]] + xs[1..][..k];
      k + 1
  }

  /** The first occurrence of an element of a prefix lies in that prefix. */
  lemma FirstIndexPrefix(xs: seq<string>, n: nat, x: string)
    requires n <= |xs| && x in xs[..n]
    ensures FirstIndex(xs, x) == FirstIndex(xs[..n], x)
  {
  }

  /** Every element of `d` occurs in `xs`, and `d` lists them in the order
      of their first occurrences in `xs`. */
  predicate InFirstOccurrenceOrder(xs: seq<string>, d: seq<string>)
  {
    forall i, j :: 0 <= i < j < |d| ==> d[i] in xs && d[j] in xs && FirstIndex(xs, d[i]) < FirstIndex(xs, d[j])
  }

  /** The kept segments appear in the order of their first occurrences. */
  lemma {:induction false} DedupOrder(xs: seq<string>)
    ensures InFirstOccurrenceOrder(xs, Dedup(xs))
    decreases |xs|
  {
    if |xs| > 0 {
      var n := |xs| - 1;
      var init := xs[..n];
      DedupOrder(init);
      DedupElements(init);
      DedupElements(xs);
      assert xs[..n] == init;
      var d := Dedup(xs);
      var d0 := Dedup(init);
      forall i, j | 0 <= i < j < |d|
        ensures FirstIndex(xs, d[i]) < FirstIndex(xs, d[j])
      {
        assert d[i] == d0[i];
        FirstIndexPrefix(xs, n, d[i]);
        if j < |d0| {
          assert d[j] == d0[j];
          FirstIndexPrefix(xs, n, d[j]);
          assert InFirstOccurrenceOrder(init, d0);
          assert FirstIndex(init, d0[i]) < FirstIndex(init, d0[j]);
        } else {
          assert d[j] == xs[n] && xs[n] !in init;
          assert FirstIndex(xs, d[j]) == n;
        }
      }
    }
  }

  /** `removeDuplicatePrefixes`: split on `:`, drop repeats, join on `:`. */
  function RemoveDuplicatePrefixes(line: string): string
  {
    Join(Dedup(Split(line, ':')), ':')
  }

  /** The segments of the deduplicated line are the deduplicated segments. */
  lemma SegmentsAfterDedup(line: string)
    ensures Split(RemoveDuplicatePrefixes(line), ':') == Dedup(Split(line, ':'))
  {
    var parts := Split(line, ':');
    DedupElements(parts);
    assert parts[0] in Dedup(parts);
    assert NoSeparator(Dedup(parts), ':') by {
      forall i | 0 <= i < |Dedup(parts)| ensures ':' !in Dedup(parts)[i] {
        assert Dedup(parts)[i] in parts;
      }
    }
    SplitJoin(Dedup(parts), ':');
  }

  /** Removing repeated segments twice is removing them once. */
  lemma RemoveDuplicatePrefixesIdempotent(line: string)
    ensures RemoveDuplicatePrefixes(RemoveDuplicatePrefixes(line)) == RemoveDuplicatePrefixes(line)
  {
    SegmentsAfterDedup(line);
    DedupIdempotent(Split(line, ':'));
  }

  /** `parseAtomicalIdfromURN`: `null` below four segments, otherwise the
      first three segments and the rest joined by `:` and cut at the first `/`. */
  function ParseAtomicalIdFromUrn(line: string): Option<ParsedId>
  {
    var parts := Split(RemoveDuplicatePrefixes(line), ':');
    if |parts| >= 4 then
      Some(ParsedId(parts[0], parts[1], parts[2], Split(Join(parts[3..], ':'), '/')[0]))
    else None
  }

  /** What the parser returns, in terms of the deduplicated segments `d`. */
  lemma ParseSpec(line: string)
    ensures var d := Dedup(Split(line, ':'));
      var r := ParseAtomicalIdFromUrn(line);
      && (r.None? <==> |d| < 4)
      && (r.Some? ==>
            var p := r.value;
            var rest := Join(d[3..], ':');
            && p.prefix == d[0] && p.protocol == d[1] && p.kind == d[2]
            && p.prefix != p.protocol && p.protocol != p.kind && p.prefix != p.kind
            && '/' !in p.id
            && StartsWith(rest, p.id)
            && ('/' in rest <==> |p.id| < |rest|)
            && (|p.id| < |rest| ==> rest[|p.id|] == '/'))
  {
    SegmentsAfterDedup(line);
    DedupDistinct(Split(line, ':'));
    var d := Dedup(Split(line, ':'));
    if |d| >= 4 {
      FirstPiece(Join(d[3..], ':'), '/');
    }
  }
}

=== FILE: witness.dfy ===
/** The witness segment filter `concatenateUint8Arrays` (src/utils.ts): a walk
    over a decompiled witness script that keeps the data pushes inside
    `IF ... ENDIF` whose first bytes carry no envelope keyword, and
    concatenates them. */
module Witness {
  import opened Basics
  import opened Text

  /** An element of a decompiled script: an opcode name, a data push, or a
      small number. */
  datatype ScriptItem = Op(name: string) | Push(data: seq<byte>) | Num(n: int)

  predicate IsAscii(s: string)
  {
    forall i :: 0 <= i < |s| ==> s[i] as int < 128
  }

  /** The bytes of an ASCII string. */
  function Ascii(s: string): (r: seq<byte>)
    requires IsAscii(s)
    ensures |r| == |s|
  {
    seq(|s|, i requires 0 <= i < |s| => s[i] as int as byte)
  }

  /** The envelope keywords. They are ASCII, and a UTF-8 decoder turns each
      ASCII byte into that character and nothing else into an ASCII
      character, so "the decoded prefix contains the keyword" is "the byte
      prefix contains the keyword's bytes". */
  const Keywords: seq<seq<byte>> :=
    [Ascii("atom"), Ascii("dat"), Ascii("mod"), Ascii("nft"), Ascii("ft"), Ascii("evt")]

  /** `item.subarray(0, 4)`. */
  function Head4(data: seq<byte>): seq<byte>
  {
    if |data| < 4 then data else data[..4]
  }

  predicate HasKeyword(data: seq<byte>)
  {
    exists k :: 0 <= k < |Keywords| && ContainsSeq(Head4(data), Keywords[k])
  }

  /** Whether collection is on after the items `p`: the last `IF`/`ENDIF` decides. */
  predicate CollectingAfter(p: seq<ScriptItem>)
  {
    if |p| == 0 then false
    else if p[|p| - 1] == Op("IF") then true
    else if p[|p| - 1] == Op("ENDIF") then false
    else CollectingAfter(p[..|p| - 1])
  }

  /** The item at `i` is a push that is kept. */
  predicate KeptAt(items: seq<ScriptItem>, i: nat)
    requires i < |items|
  {
    items[i].Push? && CollectingAfter(items[..i]) && !HasKeyword(items[i].data)
  }

  /** The kept pushes, in order. */
  function Kept(items: seq<ScriptItem>): seq<seq<byte>>
  {
    if |items| == 0 then []
    else Kept(items[..|items| - 1]) + (if KeptAt(items, |items| - 1) then [items[|items| - 1].data] else [])
  }

  function Flatten<T>(segs: seq<seq<T>>): seq<T>
  {
    if |segs| == 0 then [] else Flatten(segs[..|segs| - 1]) + segs[|segs| - 1]
  }

  function SumLengths<T>(segs: seq<seq<T>>): nat
  {
    if |segs| == 0 then 0 else SumLengths(segs[..|segs| - 1]) + |segs[|segs| - 1]|
  }

  /** `concatenateUint8Arrays`: first select the pushes, then add up their
      lengths, then copy them one after the other. */
  method ConcatenateSegments(items: seq<ScriptItem>) returns (out: seq<byte>)
    ensures out == Flatten(Kept(items))
    ensures |out| == SumLengths(Kept(items))
  {
    var result: seq<seq<byte>> := [];
    var collecting := false;
    var i := 0;
    while i < |items|
      invariant 0 <= i <= |items|
      invariant collecting == CollectingAfter(items[..i])
      invariant result == Kept(items[..i])
    {
      var item := items[i];
      assert items[..i + 1][..i] == items[..i];
      if item == Op("IF") {
        collecting := true;
      } else if item == Op("ENDIF") {
        collecting := false;
      } else if collecting && item.Push? {
        if !HasKeyword(item.data) {
          result := result + [item.data];
        }
      }
      i := i + 1;
    }
    assert items[..|items|] == items;

    var totalLength := 0;
    var j := 0;
    while j < |result|
      invariant 0 <= j <= |result|
      invariant totalLength == SumLengths(result[..j])
    {
      assert result[..j + 1][..j] == result[..j];
      totalLength := totalLength + |result[j]|;
      j := j + 1;
    }
    assert result[..|result|] == result;

    out := [];
    var offset := 0;
    j := 0;
    while j < |result|
      invariant 0 <= j <= |result|
      invariant offset == |out| <= totalLength
      invariant out == Flatten(result[..j])
      invariant totalLength == offset + SumLengths(result) - SumLengths(result[..j])
    {
      assert result[..j + 1][..j] == result[..j];
      SumLengthsPrefix(result, j + 1);
      out := out + result[j];
      offset := offset + |result[j]|;
      j := j + 1;
    }
  }

  lemma {:induction false} SumLengthsPrefix(segs: seq<seq<byte>>, n: nat)
    requires n <= |segs|
    ensures SumLengths(segs[..n]) <= SumLengths(segs)
    decreases |segs|
  {
    if n < |segs| {
      SumLengthsPrefix(segs[..|segs| - 1], n);
      assert segs[..|segs| - 1][..n] == segs[..n];
    } else {
      assert segs[..n] == segs;
    }
  }

  /** No `ENDIF` among the items after position `j`. */
  predicate OpenAfter(p: seq<ScriptItem>, j: nat)
  {
    forall m :: j < m < |p| ==> p[m] != Op("ENDIF")
  }

  /** Collection is on exactly when some `IF` is not followed by an `ENDIF`. */
  lemma {:induction false} CollectingIff(p: seq<ScriptItem>)
    ensures CollectingAfter(p) <==> exists j :: 0 <= j < |p| && p[j] == Op("IF") && OpenAfter(p, j)
    decreases |p|
  {
    if |p| > 0 {
      var n := |p| - 1;
      var init := p[..n];
      CollectingIff(init);
      if p[n] == Op("IF") {
        assert OpenAfter(p, n);
      } else if p[n] == Op("ENDIF") {
        forall j | 0 <= j < |p| && p[j] == Op("IF") ensures !OpenAfter(p, j) {
          assert j < n;
        }
      } else {
        if CollectingAfter(init) {
          var j :| 0 <= j < |init| && init[j] == Op("IF") && OpenAfter(init, j);
          assert p[j] == Op("IF") && OpenAfter(p, j);
        }
        forall j | 0 <= j < |p| && p[j] == Op("IF") && OpenAfter(p, j) ensures CollectingAfter(init) {
          assert j < n && init[j] == Op("IF") && OpenAfter(init, j);
        }
      }
    }
  }

  /** The positions of the kept pushes. */
  ghost function KeptIndices(items: seq<ScriptItem>): seq<nat>
  {
    if |items| == 0 then []
    else KeptIndices(items[..|items| - 1]) + (if KeptAt(items, |items| - 1) then [|items| - 1] else [])
  }

  /** The kept pushes are exactly the pushes at the positions where `KeptAt`
      holds, in increasing position order. */
  lemma {:induction false} KeptSpec(items: seq<ScriptItem>)
    ensures var ks := Kept(items);
      var idx := KeptIndices(items);
      && |idx| == |ks|
      && (forall k :: 0 <= k < |idx| ==> idx[k] < |items| && KeptAt(items, idx[k]) && ks[k] == items[idx[k]].data)
      && (forall k, l :: 0 <= k < l < |idx| ==> idx[k] < idx[l])
      && (forall i :: 0 <= i < |items| && KeptAt(items, i) ==> i in idx)
    decreases |items|
  {
    if |items| > 0 {
      var n := |items| - 1;
      var init := items[..n];
      KeptSpec(init);
      forall i | 0 <= i < n ensures KeptAt(init, i) == KeptAt(items, i) {
        assert init[..i] == items[..i];
      }
    }
  }

  /** A kept push lies inside an `IF ... ENDIF` span and has no keyword. */
  lemma KeptInsideIf(items: seq<ScriptItem>, i: nat)
    requires i < |items| && KeptAt(items, i)
    ensures !HasKeyword(items[i].data)
    ensures exists j :: 0 <= j < i && items[j] == Op("IF") && forall m :: j < m < i ==> items[m] != Op("ENDIF")
  {
    CollectingIff(items[..i]);
    var j :| 0 <= j < i && items[..i][j] == Op("IF") && OpenAfter(items[..i], j);
    assert forall m :: j < m < i ==> items[m] == items[..i][m];
  }

  /** Without an `IF` nothing is kept. */
  lemma {:induction false} NothingKeptWithoutIf(items: seq<ScriptItem>)
    requires forall i :: 0 <= i < |items| ==> items[i] != Op("IF")
    ensures Kept(items) == []
    decreases |items|
  {
    if |items| > 0 {
      var n := |items| - 1;
      NothingKeptWithoutIf(items[..n]);
      CollectingIff(items[..n]);
    }
  }
}
